=== FILE: README.md ===
# JotForm API client, modelled in Dafny

This project models the JotForm Ruby client (`JotForm.rb`): a thin façade
with one method per REST call of the JotForm API. Each method picks a verb
and an endpoint. It reshapes the caller's form data into the bracketed field
names the service expects (`submission[3][text]`, `question[order]`,
`properties[width]`, `questions[1][type]`). It then hands everything to a
single executor. The executor builds the request with the API key in the
query, sends it, and unwraps the `content` member of the JSON envelope.

Modules, one per file:

- `Wrappers` (`wrappers.dfy`): `Option` and `Result`. A `Failure` stands for
  a Ruby exception the client raises itself.
- `RubyValues` (`values.dfy`): the caller's values, JSON documents, the
  exceptions, and `Assign`. `Assign` is the hash built by a sequence of
  `h[k] = v` writes, where the last write to a key wins.
- `RubyStrings` (`strings.dfy`): `String#split` with Ruby's rule of
  dropping trailing empty pieces, and `Array#join`. Also `String#include?`
  and the `&&` operator, on the string and boolean operands that line 315
  of `JotForm.rb` gives them.
- `Flatten` (`flatten.dfy`): the key-flattening transformers:
  - `createFormSubmissions` and `editSubmission`, including `editSubmission`
    as written;
  - the wrappers of `createFormQuestion`, `editFormQuestion` and
    `setFormProperties`;
  - `createForm`.
- `Http` (`http.dfy`): the executor `_executeHTTPRequest`. It is split into
  request building and envelope unwrapping. The transport is a function
  parameter.
- `Client` (`client.dfy`): the routing table for every public method,
  grouped by resource (`user`, `form/<id>`, `submission/<id>`,
  `report/<id>`, `folder`, `system/plan`). It also gives the end-to-end call
  `Invoke`.

## Model

| member | source | states |
|---|---|---|
| RubyValues.Assign | JotForm.rb:177-187 | The hash built by writing each pair in order holds exactly the keys written. Each key holds the value of its last write. |
| RubyValues.AssignProvenance | JotForm.rb:183-185 | Every key written is in the built hash. It holds the value of a write to that key that no later write overrides. |
| RubyStrings.SplitAll | JotForm.rb:180 | Splitting gives at least one piece and no piece contains the separator. Joining the pieces with the separator gives back the string. |
| RubyStrings.SplitAllUnique | JotForm.rb:180 | Those three properties determine the split: any separator-free pieces that join to `s` are exactly `SplitAll(s)`. |
| RubyStrings.DropTrailingEmpty | JotForm.rb:180 | Ruby's split keeps a prefix of the pieces. The kept prefix ends in a non-empty piece, and every dropped piece is empty. |
| RubyStrings.RubySplitEmptyIff | JotForm.rb:180-181 | `RubySplit` (Ruby's `split('_')`) returns no pieces exactly when the string consists only of separators. That is the case where `exploded.first` is `nil`. |
| RubyStrings.Include | JotForm.rb:315 | `String#include?` raises TypeError exactly when its argument is `true` or `false`. |
| RubyStrings.IncludeCharIff | JotForm.rb:315 | `s.include?(c)` for a one-character string holds exactly when `c` occurs in `s`. |
| RubyStrings.StringAndYieldsRight | JotForm.rb:315 | A string left of `&&` is truthy, so `'_' && b` is `b`, and passing it to `include?` raises. |
| RubyStrings.SplitPair | JotForm.rb:180-182 | Under `RubySplit`, `q_f`, with `q` and `f` free of `_` and `f` non-empty, splits into `[q, f]`. |
| RubyStrings.RubySplitTrailingSep | JotForm.rb:180 | Appending a separator to any string leaves its `RubySplit` unchanged, because the empty piece it opens is a trailing one. |
| RubyStrings.SplitTrailing | JotForm.rb:180-182 | `q_`, with `q` non-empty and free of `_`, splits into `[q]` alone. |
| RubyStrings.SplitEnds | JotForm.rb:180-182 | For `q_mid_f`, the first piece is `q` and the last is `f`, whatever `mid` holds. |
| Flatten.BracketInjective | JotForm.rb:350 | Two keys wrapped under the same prefix give the same field name only if the keys are equal. |
| Flatten.RekeyAll | JotForm.rb:178-187 | Renaming every key succeeds exactly when the key rule succeeds on every key. On success each pair keeps its value under its renamed key. On failure the error is the key rule's error on some key. |
| Flatten.RekeyHash | JotForm.rb:177-187 | The loop `out[f(key)] = value` with a key rule that may raise builds its hash exactly when every key converts. On failure the error is the rule's error on some key. The fields are the converted keys. Each field holds the value of the last entry converted to it. |
| Flatten.SubmissionKey | JotForm.rb:179-186 | A submission key always becomes a field under `submission`, or raises the `nil`-concatenation TypeError. Keys holding `_` go through `Flatten.SplitKey`, which keeps the first and last pieces of the split. |
| Flatten.SubmissionKeyFailsIff | JotForm.rb:179-183 | A submission key raises exactly when it is non-empty and made only of underscores. |
| Flatten.SubmissionKeyShapes | JotForm.rb:179-185 | `q_f` becomes `submission[q][f]`. A key without `_` becomes `submission[key]`. |
| Flatten.SubmissionKeyDropsMiddle | JotForm.rb:180-183 | Middle pieces are lost: `q_mid_f` lands on the same field as `q_f`. |
| Flatten.PairKeyExample | JotForm.rb:179-183 | `3_text` becomes `submission[3][text]`. |
| Flatten.SameFieldLaterWins | JotForm.rb:178-187 | Two entries that land on one field leave that field alone in the hash, holding the later value. |
| Flatten.RekeySameField | JotForm.rb:183-185 | Under any key rule, two keys renamed to one field leave a one-field hash holding the later value. |
| Flatten.SubmissionCollision | JotForm.rb:178-187 | `{3_a_text: v1, 3_text: v2}` flattens to `{submission[3][text]: v2}`. |
| Flatten.SubmissionKeyTrailing | JotForm.rb:179-183 | A trailing `_` on a key that already holds `_` changes nothing: `3_text_` lands on the field of `3_text`. |
| Flatten.SubmissionKeyTrailingPiece | JotForm.rb:179-183 | For every non-empty `q` without `_`, `q_` becomes `submission[q][q]`. |
| Flatten.SubmissionKeyEdgeCases | JotForm.rb:179-183 | `3_` becomes `submission[3][3]`. `_` raises. `_a` becomes `submission[][a]`. |
| Flatten.FlattenSubmission | JotForm.rb:176-189 | The flattened submission is built exactly when every key converts, and otherwise raises the TypeError. Its fields are the converted keys, all under `submission`. Each field holds the value of the last entry converted to it. |
| Flatten.EditKey | JotForm.rb:315-322 | The intended edit rule yields a field under `submission` or raises the `nil`-concatenation TypeError. |
| Flatten.EditSubmission | JotForm.rb:311-326 | The intended edit hash is built exactly when every key converts under the edit rule, and otherwise raises the TypeError. Its fields are the converted keys, all under `submission`. Each field holds the value of the last entry converted to it. |
| Flatten.EditKeyAgrees | JotForm.rb:179-186 | Off `created_at`, the edit rule and the create rule agree. |
| Flatten.EditKeepsCreatedAt | JotForm.rb:315 | Editing keeps `created_at` whole as `submission[created_at]`. |
| Flatten.CreateSplitsCreatedAt | JotForm.rb:179-183 | Creating splits `created_at` into `submission[created][at]`. |
| Flatten.EditMatchesCreate | JotForm.rb:311-326 | Without a `created_at` key, editing flattens exactly as creating does. |
| Flatten.EditKeyAsWritten | JotForm.rb:315-322 | Evaluating line 315 as Ruby parses it raises TypeError for every key. `'_' && key != 'created_at'` evaluates to its boolean right operand, and `include?` raises when given a boolean. |
| Flatten.EditKeyIntendedParse | JotForm.rb:315-322 | The intended rule is line 315 with `(key.include? '_') && key != 'created_at'`: split when the key holds `_` and is not `created_at`, otherwise wrap it whole. |
| Flatten.NestedBracketUnder | JotForm.rb:182 | `submission[q][f]` is a field under `submission` for every `q` and `f`. |
| Flatten.EditSubmissionAsWritten | JotForm.rb:311-326 | Whatever the method as written raises is that TypeError. |
| Flatten.EditSubmissionAsWrittenFails | JotForm.rb:311-326 | As written, the method raises exactly when the submission is non-empty. The empty submission flattens to `{}`. |
| Flatten.EditSubmissionDefect | JotForm.rb:315 | `{3_text: v}` raises as written, while the intended rule posts `{submission[3][text]: v}`. |
| Flatten.WrapKeys | JotForm.rb:347-354 | The wrapped hash's fields are exactly `prefix[k]` for the caller's keys `k`. Each holds the value of the last entry with key `k`. |
| Flatten.WrapTwo | JotForm.rb:369-377 | Two distinct keys wrap to exactly their two bracketed fields and values. |
| Flatten.QuestionWrapExample | JotForm.rb:347-354 | `{text: Q1, order: 2}` becomes `{question[text]: Q1, question[order]: 2}`. |
| Flatten.PropertyWrapExample | JotForm.rb:383-391 | `{width: 600}` becomes `{properties[width]: 600}`. |
| Flatten.FieldOne | JotForm.rb:408-415 | A field is iterable exactly when it is under `properties` or its value is a hash. Otherwise `each` is undefined. Its writes are exactly its leaves. |
| Flatten.FormWrites | JotForm.rb:407-417 | The form's writes exist exactly when every category is a hash and every field outside `properties` is a hash. |
| Flatten.FieldWritesLeaves | JotForm.rb:408-416 | A category's writes are exactly its leaves: `cat[k]` for properties, `cat[k][a]` for the other categories. |
| Flatten.FormWritesLeaves | JotForm.rb:407-417 | The form's writes are exactly the leaves of its categories. |
| Flatten.FlattenForm | JotForm.rb:404-420 | `createForm` builds its hash exactly when the form has the iterable shape, and otherwise raises NoMethodError. Every leaf's name is a field. Every field holds the value of some leaf of that name. |
| Flatten.FlattenFormTwoLeaves | JotForm.rb:404-417 | One property and one nested question give `{properties[k]: v, cat[q][a]: b}`. |
| Flatten.FlattenFormRejectsString | JotForm.rb:407-408 | A category holding a string raises NoMethodError. |
| Http.BuildRequest | JotForm.rb:24-39 | A missing API key raises. Otherwise the request has the given verb and the URL `base/version/endpoint`, with the API key in the query for every verb. GET and DELETE carry no body. POST carries the parameters as form data. PUT carries them raw with the JSON Content-Type. |
| Http.ParamsOnlyReachBody | JotForm.rb:24-39 | Changing the parameters changes nothing but the body. |
| Http.BodilessIgnoresParams | JotForm.rb:29-35 | GET and DELETE requests do not depend on the parameters. |
| Http.Unwrap | JotForm.rb:43-48 | A reply yields a value exactly when its status is 2xx and the envelope has `content`. The value is that `content`. |
| Http.Execute | JotForm.rb:24-48 | Execution raises exactly when the API key is missing. A returned value is the `content` of a 2xx reply to the built request. `nil` means a non-2xx reply or no `content`. |
| Http.DefaultClientUrl | JotForm.rb:18-25 | The default client `Http.NewClient` (base `https://api.jotform.com`, version `v1`) builds URLs under `https://api.jotform.com/v1/`. |
| Client.PlanUser | JotForm.rb:69-126 | The `user` routes all lie under `user`. Reads use GET, `createForms` PUTs its JSON, and the other writes POST. Only `createForm` can raise: it raises exactly when `FlattenForm` raises, with that error, and otherwise POSTs the flattened form to `user/forms`. |
| Client.PlanForm | JotForm.rb:131-216 | Every `form/<id>` route lies under `form/` followed by the ID exactly as given. Only `deleteFormWebhook` plans nothing. GET exactly for the reads. Only `createFormSubmissions` can raise: it raises exactly when `FlattenSubmission` raises, with that error, and otherwise POSTs the flattened hash to `form/<id>/submissions`. |
| Client.PlanFormWrite | JotForm.rb:176-434 | The writing form routes: DELETE exactly for `deleteFormQuestion` and `deleteForm`. PUT exactly for `createFormQuestions` and `setMultipleFormProperties`. POST with fields otherwise. `createFormSubmissions` raises exactly when its flattening raises and otherwise POSTs the flattened hash to `/submissions`. `createFormQuestion` and `editFormQuestion` POST their hash wrapped under `question` to `/questions` and `/question/<qid>`. `setFormProperties` POSTs its hash wrapped under `properties` to `/properties`. `createFormWebhook` POSTs `{webhookURL: url}` to `/webhooks`, and `createReport` POSTs the caller's hash to `/reports`. |
| Client.PlanFormRead | JotForm.rb:131-203 | The reading form routes are GETs without parameters under the form's path, at the path plus the call's `Client.ReadSuffix`. |
| Client.FormReadsDistinct | JotForm.rb:131-203 | Two reading calls on one form that reach the same endpoint are the same call, with the same question ID or property key. |
| Client.ReadSuffixInjective | JotForm.rb:138-170 | The path suffixes of the reading form calls are pairwise distinct. |
| Client.UserReadsDistinct | JotForm.rb:69-126 | Two reading `user/` calls that reach the same endpoint are the same call. |
| Client.PlanSubmission | JotForm.rb:221-326 | `submission/<sid>` routes. GET exactly for `getSubmission` and DELETE exactly for `deleteSubmission`. `editSubmission` raises exactly when its flattening raises, with that flattening's error, and otherwise POSTs the flattened hash as its fields. Only editing can raise. |
| Client.PlanReport | JotForm.rb:228-468 | `getReport` (lines 228-230) and `deleteReport` (lines 466-468) address `report/<id>` without parameters. GET exactly for `getReport` and DELETE exactly for `deleteReport`. |
| Client.PlanFolder | JotForm.rb:235-283 | The folder routes lie under `folder`. GET exactly for `getFolder`, POST exactly for `createFolder`, DELETE exactly for `deleteFolder`, and PUT exactly for `updateFolder` and both calls that add forms to a folder. |
| Client.Plan | JotForm.rb:69-468 | Across all public methods, only `deleteFormWebhook` plans no request and only the three flattening calls can raise. GET is used exactly for the reading calls. Each endpoint lies under the resource the call addresses. |
| Client.Dispatch | JotForm.rb:24-39 | Every request a call issues carries the API key in its query, and a reading call's request is a GET without a body. |
| Client.Invoke | JotForm.rb:24-48 | A call raises exactly when dispatching it raises, and a non-stub call on a client without an API key always raises. Otherwise it returns the unwrapped reply to the request it dispatches: the `content` of a 2xx reply, else `nil`. The stub returns `nil`. |
| Client.AddOneFormIsAddForms | JotForm.rb:257-283 | `addFormToFolder(f, id)` issues the same request as `addFormsToFolder(f, [id])` and as `updateFolder(f, {"forms": [id]}.to_json)`. That request is a PUT of JSON to `folder/<f>`. |
| Client.WebhookDeletionIsStub | JotForm.rb:214-216 | `deleteFormWebhook` returns `nil` without any request, even without an API key. |
| Client.IdentifiersNotEscaped | JotForm.rb:131-140 | A form ID is pasted in unescaped, so `getForm("X/questions")` is `getFormQuestions("X")`. |
| Client.ReturnsContentOnSuccess | JotForm.rb:43-44 | A 200 reply's `content` is what the call returns. |
| Client.ReturnsNilOnError | JotForm.rb:45-48 | If every reply fails, every call returns `nil` unless it raises first. |
| Client.SubmissionsArePostedFlattened | JotForm.rb:176-189 | `createFormSubmissions` POSTs the flattened answers as form data to `form/<id>/submissions`, with the API key in the query. |
| Client.DispatchPost | JotForm.rb:31-33 | A call planned as a POST issues a form-encoded request to the versioned endpoint. |
| Client.DispatchBuildsPlan | JotForm.rb:24-39 | The request a call issues is the executor's request for that call's plan. |

## Left out

- The network: `Net::HTTP`, the host connection, and transport failures. The
  transport is a function parameter from request to response.
- `URI.parse`: the request keeps the joined URL and the query apart. A URL
  that does not parse is not modelled. The host-and-path split is the
  transport's business. The source sends only the parsed path plus
  `?apiKey=…` and connects to the host on port 80 without TLS, so the
  `https` scheme of the default base URL, and any `?…` or `#…` inside an
  identifier, never reach the wire.
- `JSON.parse` and `to_json`: a reply is modelled as already parsed into its
  envelope map. The text that `addFormsToFolder` serialises is produced by a
  serializer parameter. A reply body that is not JSON is not modelled.
- `puts` of the error envelope (line 46): it is output only.
- A JSON `null` under `content`: Ruby returns `nil` for it, so the caller
  cannot tell it from a missing `content`. The model returns
  `Some(JNull)`, which keeps the two apart.
- Caller values are strings and nested hashes. Arrays, numbers and symbols
  as keys are not modelled. Keys are strings, as the key concatenations
  require.
- Pass-through parameters (`updateSettings`, `createReport`,
  `createFolder`, `registerUser`, `loginUser`) are modelled as the hash
  built from the caller's entries. How `set_form_data` encodes them, and
  the Content-Type it sets, are left to the transport.
- The `type` argument of `_executeHTTPRequest` is a closed set of four
  verbs. An unknown verb string, which would leave `request` unset, is not
  modelled. The four `_execute…Request` wrappers (lines 51-65) are this
  argument.
- The constructor's attribute accessors (lines 13-15): the configuration is
  an immutable value, fixed when the client is created.
- Flatten.FlattenForm: the contract says each field holds the value of some
  leaf of that name, not specifically the last such leaf in iteration order.
  The body builds the hash with `Assign`, whose contract gives the
  last-write rule.
- Client.PlanUser: the contract fixes the verb, the parameter kind and the
  `user` prefix of each endpoint, and the endpoint and hash of `createForm`.
  The exact suffix of the other routes, and the hashes that
  `updateSettings`, `registerUser` and `loginUser` pass through, are fixed
  by the routing table itself.
- Client.PlanForm: the contract fixes the verb, the parameter kind and the
  `form/<id>` prefix of each endpoint, and the endpoint and hash of
  `createFormSubmissions`. The reading calls append `Client.ReadSuffix`,
  whose suffixes `Client.ReadSuffixInjective` shows pairwise distinct, and
  the posted hashes of the writing calls are stated on
  `Client.PlanFormWrite`.
- Client.PlanFormWrite: the contract does not state the exact endpoint of
  `cloneForm`, `deleteForm`, `deleteFormQuestion`, `createFormQuestions` and
  `setMultipleFormProperties`, nor the JSON text the last two PUT, beyond
  the verb, the `form/<id>` prefix and the parameter kind; the routing table
  itself fixes them.
- Client.PlanFolder: the contract fixes the verb of every folder call and
  the `folder` prefix of each endpoint, not the exact suffix, which the
  routing table itself fixes.
- The routing table uses the intended `editSubmission` rule, not the rule as
  written (see Findings).

## Findings

| source | as written | input that shows it | evidently intended | confidence | as-written member | corrected member |
|---|---|---|---|---|---|---|
| JotForm.rb:315 | `key.include? '_' && key != 'created_at'` parses as `key.include?('_' && key != 'created_at')`, so `include?` receives `true` or `false` and raises TypeError for every key. | `editSubmission(sid, {"3_text" => "x"})` | `key.include?('_') && key != 'created_at'`: split keys holding `_`, but keep `created_at` whole | high, not executed | Flatten.EditSubmissionDefect | Flatten.EditMatchesCreate |

`Flatten.EditSubmissionDefect` exhibits the input in the table. As written,
`editSubmission` raises on it. Under the intended rule it posts
`{"submission[3][text]" => "x"}`. The TypeError is not assumed:
`Flatten.EditKeyAsWritten` evaluates line 315 through the modelled `&&` and
`include?`, and its contract derives the failure from them.
`Flatten.EditSubmissionAsWrittenFails`
shows that only an empty submission gets through as written. The corrected
rule is `Flatten.EditKey`. `Flatten.EditMatchesCreate` proves that it
flattens exactly as `createFormSubmissions` does on every submission without
a `created_at` key. The façade's `editSubmission` route uses the corrected
rule.

=== FILE: client.dfy ===
/**
 The resource façade: one call per public method of the client, grouped by
 the resource it addresses. Each call fixes a verb and an endpoint built by
 plain concatenation of fixed segments and the caller's identifiers (no
 escaping), passes its data through the matching flattener or unchanged, and
 hands the result to the executor.
 */
module Client {
  import opened Wrappers
  import opened RubyValues
  import opened Flatten
  import opened Http

  /** Calls under `user/`. Caller hashes are entry lists; arguments documented
      as JSON are pre-serialised texts. */
  datatype UserOp =
    | GetUser
    | GetUsage
    | GetForms
    | GetSubmissions
    | GetSubusers
    | GetFolders
    | GetReports
    | GetSettings
    | UpdateSettings(settings: Entries)
    | GetHistory
    | CreateForm(form: Entries)
    | CreateForms(formsJson: string)
    | RegisterUser(userDetails: Entries)
    | LoginUser(credentials: Entries)
    | LogoutUser
  {
    /** The calls that only read. */
    predicate Reads()
    {
      !(UpdateSettings? || CreateForm? || CreateForms? || RegisterUser? || LoginUser?)
    }
  }

  /** Calls under `form/<formID>`. */
  datatype FormOp =
    | GetForm
    | GetFormQuestions
    | GetFormQuestion(qid: string)
    | GetFormProperties
    | GetFormProperty(propertyKey: string)
    | GetFormSubmissions
    | CreateFormSubmissions(submission: Entries)
    | GetFormFiles
    | GetFormWebhooks
    | CreateFormWebhook(webhookUrl: string)
    | DeleteFormWebhook(webhookId: string)
    | GetFormReports
    | CreateReport(report: Entries)
    | CloneForm
    | DeleteFormQuestion(qid: string)
    | CreateFormQuestion(question: Entries)
    | CreateFormQuestions(questionsJson: string)
    | EditFormQuestion(qid: string, questionProperties: Entries)
    | SetFormProperties(formProperties: Entries)
    | SetMultipleFormProperties(propertiesJson: string)
    | DeleteForm
  {
    predicate Reads()
    {
      || GetForm? || GetFormQuestions? || GetFormQuestion? || GetFormProperties? || GetFormProperty?
      || GetFormSubmissions? || GetFormFiles? || GetFormWebhooks? || GetFormReports?
    }
  }

  /** Calls under `submission/<sid>`. */
  datatype SubmissionOp = GetSubmission | DeleteSubmission | EditSubmission(submission: Entries)

  /** Calls under `report/<reportID>`. */
  datatype ReportOp = GetReport | DeleteReport

  /** Calls under `folder`. */
  datatype FolderOp =
    | GetFolder(folderId: string)
    | CreateFolder(folderProperties: Entries)
    | DeleteFolder(folderId: string)
    | UpdateFolder(folderId: string, folderJson: string)
    | AddFormsToFolder(folderId: string, formIds: seq<string>)
    | AddFormToFolder(folderId: string, formId: string)

  /** One public method of the client, with its arguments. */
  datatype Call =
    | User(userOp: UserOp)
    | Form(formId: string, formOp: FormOp)
    | Submission(sid: string, submissionOp: SubmissionOp)
    | Report(reportId: string, reportOp: ReportOp)
    | Folder(folderOp: FolderOp)
    | GetPlan(planName: string)

  /** The calls named `get…`, and `logoutUser`: the ones that only read. */
  predicate Reads(call: Call)
  {
    match call
    case User(op) => op.Reads()
    case Form(_, op) => op.Reads()
    case Submission(_, op) => op.GetSubmission?
    case Report(_, op) => op.GetReport?
    case Folder(op) => op.GetFolder?
    case GetPlan(_) => true
  }

  /** The calls whose data goes through a flattener that can raise. */
  predicate Flattens(call: Call)
  {
    || (call.User? && call.userOp.CreateForm?)
    || (call.Form? && call.formOp.CreateFormSubmissions?)
    || (call.Submission? && call.submissionOp.EditSubmission?)
  }

  /** The one call that issues no request. */
  predicate IsStub(call: Call)
  {
    call.Form? && call.formOp.DeleteFormWebhook?
  }

  /** What a call hands to the executor. */
  datatype Planned = Planned(verb: Verb, endpoint: string, params: Params)

  /** Each verb carries the kind of parameters the executor expects of it. */
  predicate ParamsFitVerb(p: Planned)
  {
    && ((p.verb == GET || p.verb == DELETE) ==> p.params == NoParams)
    && (p.verb == POST ==> p.params.Fields?)
    && (p.verb == PUT ==> p.params.Text?)
  }

  /** `{"forms": formIDs}`. */
  function FormsDocument(formIds: seq<string>): Json
  {
    JObj([("forms", JArr(seq(|formIds|, i requires 0 <= i < |formIds| => JStr(formIds[i]))))])
  }

  function Get(endpoint: string): Planned
  {
    Planned(GET, endpoint, NoParams)
  }

  function Post(endpoint: string, fields: Hash): Planned
  {
    Planned(POST, endpoint, Fields(fields))
  }

  function Put(endpoint: string, text: string): Planned
  {
    Planned(PUT, endpoint, Text(text))
  }

  function Delete(endpoint: string): Planned
  {
    Planned(DELETE, endpoint, NoParams)
  }

  /** A flattener's hash posted to `endpoint`, or the flattener's exception. */
  function PostFlattened(endpoint: string, fields: Result<Hash, Fault>): (r: Result<Planned, Fault>)
    ensures r.Success? <==> fields.Success?
    ensures r.Success? ==> r.value == Post(endpoint, fields.value)
    ensures r.Failure? ==> r.error == fields.error
  {
    var h :- fields;
    Success(Post(endpoint, h))
  }

  /** The `user/` routes: reads use GET, the rest POST except `createForms`,
      which PUTs its JSON; only `createForm`'s flattening can raise. */
  function PlanUser(op: UserOp): (r: Result<Planned, Fault>)
    ensures r.Failure? ==> op.CreateForm?
    ensures r.Success? ==> ParamsFitVerb(r.value)
    ensures r.Success? ==> (r.value.verb == GET <==> op.Reads())
    ensures r.Success? ==> (r.value.verb == PUT <==> op.CreateForms?)
    ensures r.Success? ==> r.value.verb != DELETE
    ensures r.Success? ==> StartsWith(r.value.endpoint, "user")
    ensures op.CreateForm? ==>
      && (r.Success? <==> FlattenForm(op.form).Success?)
      && (r.Failure? ==> r.error == FlattenForm(op.form).error)
      && (r.Success? ==> r.value == Post("user/forms", FlattenForm(op.form).value))
  {
    match op
    case GetUser => Success(Get("user"))
    case GetUsage => Success(Get("user/usage"))
    case GetForms => Success(Get("user/forms"))
    case GetSubmissions => Success(Get("user/submissions"))
    case GetSubusers => Success(Get("user/subusers"))
    case GetFolders => Success(Get("user/folders"))
    case GetReports => Success(Get("user/reports"))
    case GetSettings => Success(Get("user/settings"))
    case UpdateSettings(settings) => Success(Post("user/settings", Assign(settings)))
    case GetHistory => Success(Get("user/history"))
    case CreateForm(form) => PostFlattened("user/forms", FlattenForm(form))
    case CreateForms(formsJson) => Success(Put("user/forms", formsJson))
    case RegisterUser(userDetails) => Success(Post("user/register", Assign(userDetails)))
    case LoginUser(credentials) => Success(Post("user/login", Assign(credentials)))
    case LogoutUser => Success(Get("user/logout"))
  }

  /** Distinct reading calls under `user/` never share an endpoint. */
  lemma UserReadsDistinct(op1: UserOp, op2: UserOp)
    requires op1.Reads() && op2.Reads()
    requires PlanUser(op1).value.endpoint == PlanUser(op2).value.endpoint
    ensures op1 == op2
  {
  }

  /** `prefix` begins `s`. */
  predicate StartsWith(s: string, prefix: string)
  {
    |prefix| <= |s| && s[..|prefix|] == prefix
  }

  /** The `form/<formID>` routes; `deleteFormWebhook` plans nothing. Every
      endpoint begins with `form/` and the identifier exactly as given. */
  function PlanForm(formId: string, op: FormOp): (r: Result<Option<Planned>, Fault>)
    ensures r == Success(None) <==> op.DeleteFormWebhook?
    ensures r.Success? && r.value.Some? ==> StartsWith(r.value.value.endpoint, "form/" + formId)
    ensures r.Failure? ==> op.CreateFormSubmissions?
    ensures r.Success? && r.value.Some? ==> ParamsFitVerb(r.value.value)
    ensures r.Success? && r.value.Some? ==> (r.value.value.verb == GET <==> op.Reads())
    ensures op.CreateFormSubmissions? ==>
      && (r.Success? <==> FlattenSubmission(op.submission).Success?)
      && (r.Failure? ==> r.error == FlattenSubmission(op.submission).error)
      && (r.Success? ==> r.value == Some(Post("form/" + formId + "/submissions", FlattenSubmission(op.submission).value)))
  {
    if op.Reads() then Success(Some(PlanFormRead("form/" + formId, op)))
    else PlanFormWrite("form/" + formId, op)
  }

  /** The reading `form/<formID>` routes, all GET below `base`. */
  function PlanFormRead(base: string, op: FormOp): (r: Planned)
    requires op.Reads()
    ensures r.verb == GET && r.params == NoParams
    ensures StartsWith(r.endpoint, base)
  {
    Get(base + ReadSuffix(op))
  }

  /** What a reading call appends to the form's path. */
  function ReadSuffix(op: FormOp): string
    requires op.Reads()
  {
    match op
    case GetForm => ""
    case GetFormQuestions => "/questions"
    case GetFormQuestion(qid) => "/question/" + qid
    case GetFormProperties => "/properties"
    case GetFormProperty(propertyKey) => "/properties/" + propertyKey
    case GetFormSubmissions => "/submissions"
    case GetFormFiles => "/files"
    case GetFormWebhooks => "/webhooks"
    case GetFormReports => "/reports"
  }

  /** Distinct reading calls on one form never share an endpoint: the path
      alone tells which read was asked for. */
  lemma FormReadsDistinct(base: string, op1: FormOp, op2: FormOp)
    requires op1.Reads() && op2.Reads()
    requires PlanFormRead(base, op1).endpoint == PlanFormRead(base, op2).endpoint
    ensures op1 == op2
  {
    var s1, s2 := ReadSuffix(op1), ReadSuffix(op2);
    assert s1 == (base + s1)[|base|..] == (base + s2)[|base|..] == s2;
    ReadSuffixInjective(op1, op2);
  }

  lemma ReadSuffixInjective(op1: FormOp, op2: FormOp)
    requires op1.Reads() && op2.Reads()
    requires ReadSuffix(op1) == ReadSuffix(op2)
    ensures op1 == op2
  {
    var s := ReadSuffix(op1);
    if op1.GetFormQuestion? && op2.GetFormQuestion? {
      assert op1.qid == s[10..] == op2.qid;
    } else if op1.GetFormProperty? && op2.GetFormProperty? {
      assert op1.propertyKey == s[12..] == op2.propertyKey;
    } else {
      ReadSuffixMarks(op1);
      ReadSuffixMarks(op2);
    }
  }

  /** The marks that tell reading suffixes apart: emptiness, the letter after
      the slash, and for the two families sharing a letter, one more
      character or the length. */
  lemma ReadSuffixMarks(op: FormOp)
    requires op.Reads()
    ensures var s := ReadSuffix(op);
      && (op.GetForm? <==> |s| == 0)
      && (!op.GetForm? ==> |s| >= 6)
      && (op.GetFormQuestions? ==> s[1] == 'q' && s[9] == 's')
      && (op.GetFormQuestion? ==> s[1] == 'q' && s[9] == '/')
      && (op.GetFormProperties? ==> s[1] == 'p' && |s| == 11)
      && (op.GetFormProperty? ==> s[1] == 'p' && |s| >= 12)
      && (op.GetFormSubmissions? ==> s[1] == 's')
      && (op.GetFormFiles? ==> s[1] == 'f')
      && (op.GetFormWebhooks? ==> s[1] == 'w')
      && (op.GetFormReports? ==> s[1] == 'r')
  {
  }

  /** The writing `form/<formID>` routes below `base`: deletions use DELETE,
      the JSON-text calls PUT, the rest POST their fields. */
  function PlanFormWrite(base: string, op: FormOp): (r: Result<Option<Planned>, Fault>)
    requires !op.Reads()
    ensures r == Success(None) <==> op.DeleteFormWebhook?
    ensures r.Failure? ==> op.CreateFormSubmissions?
    ensures r.Success? && r.value.Some? ==> ParamsFitVerb(r.value.value) && r.value.value.verb != GET
    ensures r.Success? && r.value.Some? ==> (r.value.value.verb == DELETE <==> op.DeleteFormQuestion? || op.DeleteForm?)
    ensures r.Success? && r.value.Some? ==> (r.value.value.verb == PUT <==> op.CreateFormQuestions? || op.SetMultipleFormProperties?)
    ensures r.Success? && r.value.Some? ==> StartsWith(r.value.value.endpoint, base)
    ensures op.CreateFormSubmissions? ==>
      && (r.Success? <==> FlattenSubmission(op.submission).Success?)
      && (r.Failure? ==> r.error == FlattenSubmission(op.submission).error)
      && (r.Success? ==> r.value == Some(Post(base + "/submissions", FlattenSubmission(op.submission).value)))
    ensures op.CreateFormWebhook? ==> r == Success(Some(Post(base + "/webhooks", map["webhookURL" := RStr(op.webhookUrl)])))
    ensures op.CreateReport? ==> r == Success(Some(Post(base + "/reports", Assign(op.report))))
    ensures op.CreateFormQuestion? ==> r == Success(Some(Post(base + "/questions", WrapKeys("question", op.question))))
    ensures op.EditFormQuestion? ==>
      r == Success(Some(Post(base + "/question/" + op.qid, WrapKeys("question", op.questionProperties))))
    ensures op.SetFormProperties? ==> r == Success(Some(Post(base + "/properties", WrapKeys("properties", op.formProperties))))
  {
    match op
    case CreateFormSubmissions(submission) =>
      var planned :- PostFlattened(base + "/submissions", FlattenSubmission(submission));
      Success(Some(planned))
    case CreateFormWebhook(webhookUrl) => Success(Some(Post(base + "/webhooks", map["webhookURL" := RStr(webhookUrl)])))
    case DeleteFormWebhook(_) => Success(None)
    case CreateReport(report) => Success(Some(Post(base + "/reports", Assign(report))))
    case CloneForm => Success(Some(Post(base + "/clone", map[])))
    case DeleteFormQuestion(qid) => Success(Some(Delete(base + "/question/" + qid)))
    case CreateFormQuestion(question) => Success(Some(Post(base + "/questions", WrapKeys("question", question))))
    case CreateFormQuestions(questionsJson) => Success(Some(Put(base + "/questions", questionsJson)))
    case EditFormQuestion(qid, questionProperties) =>
      Success(Some(Post(base + "/question/" + qid, WrapKeys("question", questionProperties))))
    case SetFormProperties(formProperties) => Success(Some(Post(base + "/properties", WrapKeys("properties", formProperties))))
    case SetMultipleFormProperties(propertiesJson) => Success(Some(Put(base + "/properties", propertiesJson)))
    case DeleteForm => Success(Some(Delete(base)))
  }

  /** The `submission/<sid>` routes; editing posts the flattened answers. */
  function PlanSubmission(sid: string, op: SubmissionOp): (r: Result<Planned, Fault>)
    ensures r.Failure? ==> op.EditSubmission?
    ensures r.Success? ==> r.value.endpoint == "submission/" + sid
    ensures r.Success? ==> ParamsFitVerb(r.value)
    ensures r.Success? ==> (r.value.verb == GET <==> op.GetSubmission?)
    ensures r.Success? ==> (r.value.verb == DELETE <==> op.DeleteSubmission?)
    ensures op.EditSubmission? ==>
      && (r.Success? <==> Flatten.EditSubmission(op.submission).Success?)
      && (r.Failure? ==> r.error == Flatten.EditSubmission(op.submission).error)
      && (r.Success? ==> r.value == Post("submission/" + sid, Flatten.EditSubmission(op.submission).value))
  {
    var endpoint := "submission/" + sid;
    match op
    case GetSubmission => Success(Get(endpoint))
    case DeleteSubmission => Success(Delete(endpoint))
    case EditSubmission(submission) => PostFlattened(endpoint, Flatten.EditSubmission(submission))
  }

  /** The `report/<reportID>` routes. */
  function PlanReport(reportId: string, op: ReportOp): (r: Planned)
    ensures r.endpoint == "report/" + reportId
    ensures r.params == NoParams
    ensures r.verb == GET <==> op.GetReport?
    ensures r.verb == DELETE <==> op.DeleteReport?
  {
    match op
    case GetReport => Get("report/" + reportId)
    case DeleteReport => Delete("report/" + reportId)
  }

  /** `updateFolder`, which the two folder-membership calls reuse. */
  function PlanUpdateFolder(folderId: string, folderJson: string): Planned
  {
    Put("folder/" + folderId, folderJson)
  }

  /** The `folder` routes; adding forms to a folder is `updateFolder` with
      the serialised `{"forms": [...]}` document. */
  function PlanFolder(op: FolderOp, serialize: Json -> string): (r: Planned)
    ensures ParamsFitVerb(r)
    ensures StartsWith(r.endpoint, "folder")
    ensures r.verb == GET <==> op.GetFolder?
    ensures r.verb == PUT <==> op.UpdateFolder? || op.AddFormsToFolder? || op.AddFormToFolder?
    ensures r.verb == POST <==> op.CreateFolder?
    ensures r.verb == DELETE <==> op.DeleteFolder?
  {
    match op
    case GetFolder(folderId) => Get("folder/" + folderId)
    case CreateFolder(folderProperties) => Post("folder", Assign(folderProperties))
    case DeleteFolder(folderId) => Delete("folder/" + folderId)
    case UpdateFolder(folderId, folderJson) => PlanUpdateFolder(folderId, folderJson)
    case AddFormsToFolder(folderId, formIds) => PlanUpdateFolder(folderId, serialize(FormsDocument(formIds)))
    case AddFormToFolder(folderId, formId) => PlanUpdateFolder(folderId, serialize(FormsDocument([formId])))
  }

  /** The path prefix of the resource a call addresses. */
  function Resource(call: Call): string
  {
    match call
    case User(_) => "user"
    case Form(formId, _) => "form/" + formId
    case Submission(sid, _) => "submission/" + sid
    case Report(reportId, _) => "report/" + reportId
    case Folder(_) => "folder"
    case GetPlan(_) => "system/plan/"
  }

  /** The routing table: only the webhook stub plans no request, only the
      flattening calls can raise, exactly the reading calls use GET, and each
      verb carries the parameters the executor expects of it. */
  function Plan(call: Call, serialize: Json -> string): (r: Result<Option<Planned>, Fault>)
    ensures r == Success(None) <==> IsStub(call)
    ensures r.Failure? ==> Flattens(call)
    ensures r.Success? && r.value.Some? ==> ParamsFitVerb(r.value.value)
    ensures r.Success? && r.value.Some? ==> (r.value.value.verb == GET <==> Reads(call))
    ensures r.Success? && r.value.Some? ==> StartsWith(r.value.value.endpoint, Resource(call))
  {
    match call
    case User(op) =>
      var planned :- PlanUser(op);
      Success(Some(planned))
    case Form(formId, op) => PlanForm(formId, op)
    case Submission(sid, op) =>
      var planned :- PlanSubmission(sid, op);
      Success(Some(planned))
    case Report(reportId, op) => Success(Some(PlanReport(reportId, op)))
    case Folder(op) => Success(Some(PlanFolder(op, serialize)))
    case GetPlan(planName) => Success(Some(Get("system/plan/" + planName)))
  }

  /** The request a call issues, if any: always authenticated in the query,
      and never with a body on a read. */
  function Dispatch(cfg: Config, call: Call, serialize: Json -> string): (r: Result<Option<Request>, Fault>)
    ensures r == Success(None) <==> IsStub(call)
    ensures r.Failure? ==> Flattens(call) || cfg.apiKey.None?
    ensures r.Success? && r.value.Some? ==>
      && cfg.apiKey.Some?
      && r.value.value.query == "?apiKey=" + cfg.apiKey.value
      && (Reads(call) ==> r.value.value.verb == GET && r.value.value.body == NoBody)
  {
    var planned :- Plan(call, serialize);
    match planned
    case None => Success(None)
    case Some(p) =>
      var request :- BuildRequest(cfg, p.endpoint, p.verb, p.params);
      Success(Some(request))
  }

  /** A call end to end: plan it, build and send its request through
      `transport`, unwrap the reply. The webhook stub returns `nil` at once. */
  function Invoke(cfg: Config, call: Call, serialize: Json -> string, transport: Request -> Response): (r: Result<Option<Json>, Fault>)
    ensures IsStub(call) ==> r == Success(None)
    ensures r.Failure? ==> Flattens(call) || cfg.apiKey.None?
    ensures cfg.apiKey.None? && !IsStub(call) ==> r.Failure?
    ensures r.Failure? <==> Dispatch(cfg, call, serialize).Failure?
    ensures r.Success? && Dispatch(cfg, call, serialize).value.Some? ==>
      r.value == Unwrap(transport(Dispatch(cfg, call, serialize).value.value))
    ensures r.Success? && r.value.Some? ==>
      && Dispatch(cfg, call, serialize).Success?
      && Dispatch(cfg, call, serialize).value.Some?
      && Unwrap(transport(Dispatch(cfg, call, serialize).value.value)) == r.value
  {
    var planned :- Plan(call, serialize);
    match planned
    case None => Success(None)
    case Some(p) => Execute(cfg, p.endpoint, p.verb, p.params, transport)
  }

  /** `addFormToFolder(f, id)` issues exactly what `addFormsToFolder(f, [id])`
      does: a PUT to `folder/<f>` carrying the serialised `{"forms": [id]}`,
      which is `updateFolder` called with that text. */
  lemma AddOneFormIsAddForms(cfg: Config, folderId: string, formId: string, serialize: Json -> string)
    ensures Dispatch(cfg, Folder(AddFormToFolder(folderId, formId)), serialize)
         == Dispatch(cfg, Folder(AddFormsToFolder(folderId, [formId])), serialize)
    ensures Dispatch(cfg, Folder(AddFormToFolder(folderId, formId)), serialize)
         == Dispatch(cfg, Folder(UpdateFolder(folderId, serialize(FormsDocument([formId])))), serialize)
    ensures cfg.apiKey.Some? ==>
      var r := Dispatch(cfg, Folder(AddFormToFolder(folderId, formId)), serialize).value.value;
      && r.verb == PUT
      && r.url == cfg.baseUrl + "/" + cfg.apiVersion + "/folder/" + folderId
      && r.body == RawBody(Text(serialize(JObj([("forms", JArr([JStr(formId)]))]))))
      && r.contentType == Some(JsonContentType)
  {
    var items := seq(|[formId]|, i requires 0 <= i < |[formId]| => JStr([formId][i]));
    assert items == [JStr(formId)] by {
      assert |items| == 1 && items[0] == JStr(formId);
    }
    assert cfg.baseUrl + "/" + cfg.apiVersion + "/" + ("folder/" + folderId)
        == cfg.baseUrl + "/" + cfg.apiVersion + "/folder/" + folderId;
  }

  /** `deleteFormWebhook` returns `nil` without touching the transport, even
      on a client with no API key. */
  lemma WebhookDeletionIsStub(cfg: Config, formId: string, webhookId: string, serialize: Json -> string, transport: Request -> Response)
    ensures Dispatch(cfg, Form(formId, DeleteFormWebhook(webhookId)), serialize) == Success(None)
    ensures Invoke(cfg, Form(formId, DeleteFormWebhook(webhookId)), serialize, transport) == Success(None)
  {
  }

  /** Identifiers are pasted in unescaped: a form ID holding a slash reaches
      another endpoint, here the question list of another form. */
  lemma IdentifiersNotEscaped(formId: string, serialize: Json -> string)
    ensures Plan(Form(formId + "/questions", GetForm), serialize) == Plan(Form(formId, GetFormQuestions), serialize)
  {
    var endpoint := "form/" + formId + "/questions";
    assert "form/" + (formId + "/questions") == endpoint;
    assert ("form/" + (formId + "/questions")) + ReadSuffix(GetForm) == endpoint;
    assert PlanFormRead("form/" + (formId + "/questions"), GetForm) == Get(endpoint);
    assert PlanFormRead("form/" + formId, GetFormQuestions) == Get(endpoint);
    assert PlanForm(formId + "/questions", GetForm) == Success(Some(Get("form/" + formId + "/questions")));
    assert PlanForm(formId, GetFormQuestions) == Success(Some(Get("form/" + formId + "/questions")));
  }

  /** A successful reply's `content` is what a call returns. */
  lemma ReturnsContentOnSuccess(key: string, serialize: Json -> string)
    ensures var transport := (req: Request) => Response(200, map["content" := JObj([("id", JStr("42"))])]);
      Invoke(NewClient(Some(key)), Form("42", GetForm), serialize, transport) == Success(Some(JObj([("id", JStr("42"))])))
  {
  }

  /** A failed reply makes every call return `nil`, never content: only a
      flattener or a missing key can raise instead. */
  lemma ReturnsNilOnError(cfg: Config, call: Call, serialize: Json -> string, transport: Request -> Response)
    requires forall req :: !IsSuccess(transport(req).status)
    ensures Invoke(cfg, call, serialize, transport) == Success(None)
         || (Invoke(cfg, call, serialize, transport).Failure? && (Flattens(call) || cfg.apiKey.None?))
  {
  }

  /** `createFormSubmissions` posts the flattened answers to
      `form/<formID>/submissions`, with the API key in the query. */
  lemma SubmissionsArePostedFlattened(key: string, cfg: Config, formId: string, submission: Entries, serialize: Json -> string)
    requires cfg.apiKey == Some(key)
    requires forall i :: 0 <= i < |submission| ==> SubmissionKey(submission[i].0).Success?
    ensures Dispatch(cfg, Form(formId, CreateFormSubmissions(submission)), serialize)
      == Success(Some(Request(POST, cfg.baseUrl + "/" + cfg.apiVersion + "/" + ("form/" + formId + "/submissions"),
                              "?apiKey=" + key, FormData(Fields(FlattenSubmission(submission).value)), None)))
  {
    SubmissionsPlan(formId, submission, serialize);
    DispatchPost(key, cfg, Form(formId, CreateFormSubmissions(submission)), serialize,
                 "form/" + formId + "/submissions", Fields(FlattenSubmission(submission).value));
  }

  /** A call planned as a POST issues a form-encoded request to the versioned endpoint. */
  lemma DispatchPost(key: string, cfg: Config, call: Call, serialize: Json -> string, endpoint: string, params: Params)
    requires cfg.apiKey == Some(key)
    requires Plan(call, serialize) == Success(Some(Planned(POST, endpoint, params)))
    ensures Dispatch(cfg, call, serialize)
      == Success(Some(Request(POST, cfg.baseUrl + "/" + cfg.apiVersion + "/" + endpoint, "?apiKey=" + key, FormData(params), None)))
  {
    DispatchBuildsPlan(cfg, call, serialize);
  }

  /** The request a call issues is the executor's request for its plan. */
  lemma DispatchBuildsPlan(cfg: Config, call: Call, serialize: Json -> string)
    ensures var plan := Plan(call, serialize);
      cfg.apiKey.Some? && plan.Success? && plan.value.Some? ==>
        var p := plan.value.value;
        Dispatch(cfg, call, serialize) == Success(Some(BuildRequest(cfg, p.endpoint, p.verb, p.params).value))
  {
  }

  /** The plan behind `createFormSubmissions`. */
  lemma SubmissionsPlan(formId: string, submission: Entries, serialize: Json -> string)
    requires forall i :: 0 <= i < |submission| ==> SubmissionKey(submission[i].0).Success?
    ensures Plan(Form(formId, CreateFormSubmissions(submission)), serialize)
      == Success(Some(Planned(POST, "form/" + formId + "/submissions", Fields(FlattenSubmission(submission).value))))
  {
    assert !CreateFormSubmissions(submission).Reads();
  }
}

=== FILE: flatten.dfy ===
/**
 The flatteners that turn a caller's hash into the bracket-notation form
 fields the service expects (`submission[3][text]`, `question[order]`,
 `properties[width]`, `questions[1][type]`). Each one mirrors a Ruby loop
 that assigns into a fresh hash, so its result is `Assign` of the writes the
 loop performs, in order; a raising key or value makes the whole call fail.
 */
module Flatten {
  import opened Wrappers
  import opened RubyValues
  import opened RubyStrings

  /** `prefix + "[" + key + "]"`. */
  function Bracket(prefix: string, key: string): string
  {
    prefix + "[" + key + "]"
  }

  /** Distinct keys under one prefix never collide. */
  lemma BracketInjective(prefix: string, k1: string, k2: string)
    requires Bracket(prefix, k1) == Bracket(prefix, k2)
    ensures k1 == k2
  {
    var a := Bracket(prefix, k1);
    assert |k1| == |k2|;
    forall i | 0 <= i < |k1|
      ensures k1[i] == k2[i]
    {
      assert a[|prefix| + 1 + i] == k1[i];
      assert Bracket(prefix, k2)[|prefix| + 1 + i] == k2[i];
    }
  }

  /** `s` starts with `prefix[` and ends with `]`. */
  predicate IsBracketedUnder(prefix: string, s: string)
  {
    |s| >= |prefix| + 2 && s[..|prefix| + 1] == prefix + "[" && s[|s| - 1] == ']'
  }

  /** Renames every key of `entries` through `f` and keeps the values: Ruby's
      loop body `out[f(key)] = value` when `f` cannot raise. */
  function Relabel<V>(entries: seq<(string, V)>, f: string -> string): (writes: seq<(string, V)>)
    ensures |writes| == |entries|
    ensures forall i :: 0 <= i < |entries| ==> writes[i] == (f(entries[i].0), entries[i].1)
  {
    seq(|entries|, i requires 0 <= i < |entries| => (f(entries[i].0), entries[i].1))
  }

  /** Renames every key through a key rule that may raise: the first key (in
      iteration order) whose rule raises makes the whole loop raise. */
  function {:induction false} RekeyAll<V>(entries: seq<(string, V)>, f: string -> Result<string, Fault>): (r: Result<seq<(string, V)>, Fault>)
    ensures r.Success? <==> forall i :: 0 <= i < |entries| ==> f(entries[i].0).Success?
    ensures r.Success? ==> |r.value| == |entries|
    ensures r.Success? ==> forall i :: 0 <= i < |entries| ==> r.value[i] == (f(entries[i].0).value, entries[i].1)
    ensures r.Failure? ==> exists i :: 0 <= i < |entries| && f(entries[i].0) == Failure(r.error)
  {
    if |entries| == 0 then Success([])
    else
      var key :- f(entries[0].0);
      var rest :- RekeyAll(entries[1..], f);
      assert forall i :: 0 < i < |entries| ==> entries[i] == entries[1..][i - 1];
      Success([(key, entries[0].1)] + rest)
  }

  /** Key rules that agree on every key of `entries` rename them alike. */
  lemma {:induction false} RekeyAllCongruent<V>(entries: seq<(string, V)>, f: string -> Result<string, Fault>, g: string -> Result<string, Fault>)
    requires forall i :: 0 <= i < |entries| ==> f(entries[i].0) == g(entries[i].0)
    ensures RekeyAll(entries, f) == RekeyAll(entries, g)
  {
    if |entries| > 0 {
      assert forall i :: 0 <= i < |entries[1..]| ==> entries[1..][i] == entries[i + 1];
      RekeyAllCongruent(entries[1..], f, g);
    }
  }

  /** No later entry is renamed by `f` to the same field as entry `i`: entry
      `i` is the one whose value that field ends up holding. */
  ghost predicate LastUnder<V>(entries: seq<(string, V)>, f: string -> Result<string, Fault>, i: int)
    requires 0 <= i < |entries|
  {
    forall j :: i < j < |entries| ==> f(entries[j].0) != f(entries[i].0)
  }

  /** The hash the loop `out[f(key)] = value` builds with a key rule that may
      raise: it is built exactly when every key converts, its fields are the
      converted keys, and each field holds the value of the last entry
      converted to it. */
  function RekeyHash<V>(entries: seq<(string, V)>, f: string -> Result<string, Fault>): (r: Result<map<string, V>, Fault>)
    ensures r.Success? <==> forall i :: 0 <= i < |entries| ==> f(entries[i].0).Success?
    ensures r.Failure? ==> exists i :: 0 <= i < |entries| && f(entries[i].0) == Failure(r.error)
    ensures r.Success? ==> r.value.Keys == set i | 0 <= i < |entries| :: f(entries[i].0).value
    ensures r.Success? ==> forall i :: 0 <= i < |entries| && LastUnder(entries, f, i) ==>
      r.value[f(entries[i].0).value] == entries[i].1
  {
    var writes :- RekeyAll(entries, f);
    forall i | 0 <= i < |entries| && LastUnder(entries, f, i)
      ensures IsLastWrite(writes, i)
    {
      forall j | i < j < |writes|
        ensures writes[j].0 != writes[i].0
      {
        assert f(entries[j].0) != f(entries[i].0);
      }
    }
    Success(Assign(writes))
  }

  // ---------------------------------------------------------------------
  // createFormSubmissions

  /** The form field for one submission key: a key holding `_` is split on `_`
      and only its first and last pieces are kept; any other key is wrapped
      whole. Splitting a key made only of underscores yields no pieces, and
      concatenating the resulting `nil` raises. */
  function SubmissionKey(key: string): (r: Result<string, Fault>)
    ensures r.Success? ==> IsBracketedUnder("submission", r.value)
    ensures r.Failure? ==> r.error == NilToString
  {
    if '_' in key then SplitKey(key)
    else Success(Bracket("submission", key))
  }

  /** A submission key raises exactly when it is nothing but underscores. */
  lemma SubmissionKeyFailsIff(key: string)
    ensures SubmissionKey(key).Failure? <==> key != "" && forall i :: 0 <= i < |key| ==> key[i] == '_'
  {
    RubySplitEmptyIff(key, '_');
  }

  /** The `_`-splitting branch of the submission key rule. */
  function SplitKey(key: string): (r: Result<string, Fault>)
    ensures r.Success? ==> IsBracketedUnder("submission", r.value)
    ensures r.Failure? <==> RubySplit(key, '_') == []
  {
    var exploded := RubySplit(key, '_');
    if |exploded| == 0 then Failure(NilToString)
    else
      var field := Bracket(Bracket("submission", exploded[0]), exploded[|exploded| - 1]);
      NestedBracketUnder("submission", exploded[0], exploded[|exploded| - 1]);
      Success(field)
  }

  /** A bracketed name nested once more stays under the outer prefix. */
  lemma NestedBracketUnder(prefix: string, a: string, b: string)
    ensures IsBracketedUnder(prefix, Bracket(Bracket(prefix, a), b))
  {
    var s := Bracket(Bracket(prefix, a), b);
    assert s == (prefix + "[") + (a + "][" + b + "]");
    assert s[..|prefix| + 1] == prefix + "[";
  }

  /** `createFormSubmissions`'s hash: every key is renamed by `SubmissionKey`,
      later entries overwriting earlier ones that land on the same field. */
  function FlattenSubmission<V>(submission: seq<(string, V)>): (r: Result<map<string, V>, Fault>)
    ensures r.Success? <==> forall i :: 0 <= i < |submission| ==> SubmissionKey(submission[i].0).Success?
    ensures r.Failure? ==> r.error == NilToString
    ensures r.Success? ==> r.value.Keys == set i | 0 <= i < |submission| :: SubmissionKey(submission[i].0).value
    ensures r.Success? ==> forall k :: k in r.value ==> IsBracketedUnder("submission", k)
    ensures r.Success? ==> forall i :: 0 <= i < |submission| && LastUnder(submission, SubmissionKey, i) ==>
      r.value[SubmissionKey(submission[i].0).value] == submission[i].1
  {
    RekeyHash(submission, SubmissionKey)
  }

  /** `q_f` becomes `submission[q][f]`, and a key without `_` is wrapped whole. */
  lemma SubmissionKeyShapes(q: string, f: string)
    requires '_' !in q && '_' !in f && f != ""
    ensures SubmissionKey(q + "_" + f) == Success("submission[" + q + "][" + f + "]")
    ensures SubmissionKey(q) == Success("submission[" + q + "]")
  {
    var key := q + "_" + f;
    assert key == q + ['_'] + f;
    assert key[|q|] == '_';
    SplitPair(q, f, '_');
    assert SubmissionKey(key) == Success(Bracket(Bracket("submission", q), f));
    BracketPairLiteral(q, f);
    assert Bracket("submission", q) == "submission[" + q + "]";
  }

  /** A trailing `_` on a key that already holds `_` is dropped by the split,
      so `3_text_` lands on the field of `3_text`. */
  lemma SubmissionKeyTrailing(key: string)
    requires '_' in key
    ensures SubmissionKey(key + "_") == SubmissionKey(key)
  {
    assert key + "_" == key + ['_'];
    assert (key + "_")[|key|] == '_';
    RubySplitTrailingSep(key, '_');
  }

  /** A single piece followed by `_` is used as both ends: `q_` becomes
      `submission[q][q]`. */
  lemma SubmissionKeyTrailingPiece(q: string)
    requires '_' !in q && q != ""
    ensures SubmissionKey(q + "_") == Success("submission[" + q + "][" + q + "]")
  {
    assert q + "_" == q + ['_'];
    assert (q + "_")[|q|] == '_';
    SplitTrailing(q, '_');
    BracketPairLiteral(q, q);
  }

  /** `Bracket` nested once spells the two-level field name. */
  lemma BracketPairLiteral(q: string, f: string)
    ensures Bracket(Bracket("submission", q), f) == "submission[" + q + "][" + f + "]"
  {
    assert "submission" + "[" == "submission[";
    assert "]" + "[" == "][";
    calc {
      Bracket(Bracket("submission", q), f);
      ("submission" + "[" + q + "]") + "[" + f + "]";
      "submission[" + q + ("]" + "[") + f + "]";
    }
  }

  /** The middle pieces of a key are lost: `q_mid_f` lands on the same field as `q_f`. */
  lemma SubmissionKeyDropsMiddle(q: string, mid: string, f: string)
    requires '_' !in q && '_' !in f && f != ""
    ensures SubmissionKey(q + "_" + mid + "_" + f) == SubmissionKey(q + "_" + f)
  {
    var key := q + "_" + mid + "_" + f;
    assert key == q + ['_'] + mid + ['_'] + f;
    assert key[|q|] == '_';
    SplitEnds(q, mid, f, '_');
    assert SubmissionKey(key) == Success(Bracket(Bracket("submission", q), f));
    SubmissionKeyShapes(q, f);
    BracketPairLiteral(q, f);
  }

  /** `3_text` becomes `submission[3][text]`. */
  lemma PairKeyExample()
    ensures SubmissionKey("3_text") == Success("submission[3][text]")
  {
    assert "3_text" == "3" + "_" + "text" by {}
    assert "submission[" + "3" + "][" + "text" + "]" == "submission[3][text]" by {}
    SubmissionKeyShapes("3", "text");
  }

  /** `3_a_text` lands where `3_text` does. */
  lemma MiddleKeyExample()
    ensures SubmissionKey("3_a_text") == SubmissionKey("3_text")
  {
    assert "3_a_text" == "3" + "_" + "a" + "_" + "text" by {}
    assert "3_text" == "3" + "_" + "text" by {}
    SubmissionKeyDropsMiddle("3", "a", "text");
  }

  /** Two entries landing on the same field leave one field holding the later value. */
  lemma SameFieldLaterWins<V>(k1: string, k2: string, key: string, v1: V, v2: V)
    requires SubmissionKey(k1) == Success(key) && SubmissionKey(k2) == Success(key)
    ensures FlattenSubmission([(k1, v1), (k2, v2)]) == Success(map[key := v2])
  {
    RekeySameField(k1, k2, key, v1, v2, SubmissionKey);
  }

  /** Under any key rule, two keys renamed to one field leave that field
      alone, holding the later value. */
  lemma RekeySameField<V>(k1: string, k2: string, key: string, v1: V, v2: V, f: string -> Result<string, Fault>)
    requires f(k1) == Success(key) && f(k2) == Success(key)
    ensures RekeyHash([(k1, v1), (k2, v2)], f) == Success(map[key := v2])
  {
    var s := [(k1, v1), (k2, v2)];
    var r := RekeyHash(s, f);
    assert f(s[0].0) == Success(key);
    assert f(s[1].0) == Success(key);
    assert r.Success?;
    assert r.value.Keys == {key} by {
      forall x | x in r.value
        ensures x == key
      {
        var i :| 0 <= i < |s| && f(s[i].0).value == x;
      }
    }
    assert LastUnder(s, f, 1);
    assert r.value[key] == v2;
    assert r.value == map[key := v2];
  }

  /** `3_a_text` and `3_text` collide, and the later entry wins. */
  lemma SubmissionCollision<V>(v1: V, v2: V)
    ensures FlattenSubmission([("3_a_text", v1), ("3_text", v2)]) == Success(map["submission[3][text]" := v2])
  {
    PairKeyExample();
    MiddleKeyExample();
    SameFieldLaterWins("3_a_text", "3_text", "submission[3][text]", v1, v2);
  }

  /** A trailing underscore leaves one piece, used as both ends; a bare
      underscore leaves none and raises. */
  lemma SubmissionKeyEdgeCases()
    ensures SubmissionKey("3_") == Success("submission[3][3]")
    ensures SubmissionKey("_") == Failure(NilToString)
    ensures SubmissionKey("_a") == Success("submission[][a]")
  {
    assert "3_" == "3" + ['_'] && "3_"[1] == '_' by {}
    assert "submission[" + "3" + "][" + "3" + "]" == "submission[3][3]" by {}
    assert "" + "_" + "a" == "_a" by {}
    assert "submission[" + "" + "][" + "a" + "]" == "submission[][a]" by {}
    assert "_"[0] == '_';
    SplitTrailing("3", '_');
    BracketPairLiteral("3", "3");
    SubmissionKeyShapes("", "a");
  }

  // ---------------------------------------------------------------------
  // editSubmission

  /** The key rule `editSubmission` evidently intends: as for
      `createFormSubmissions`, except that `created_at` is never split. */
  function EditKey(key: string): (r: Result<string, Fault>)
    ensures r.Success? ==> IsBracketedUnder("submission", r.value)
    ensures r.Failure? ==> r.error == NilToString
  {
    if '_' in key && key != "created_at" then SplitKey(key)
    else Success(Bracket("submission", key))
  }

  /** The intended rule is line 315 with the test parenthesised as
      `(key.include? '_') && key != 'created_at'`. */
  lemma EditKeyIntendedParse(key: string)
    ensures Include(key, OStr("_")).Success?
    ensures EditKey(key) ==
      if Include(key, OStr("_")).value && key != "created_at" then SplitKey(key)
      else Success(Bracket("submission", key))
  {
    assert "_" == ['_'];
    IncludeCharIff(key, '_');
  }

  /** `editSubmission`'s hash under the intended key rule. */
  function EditSubmission<V>(submission: seq<(string, V)>): (r: Result<map<string, V>, Fault>)
    ensures r.Success? <==> forall i :: 0 <= i < |submission| ==> EditKey(submission[i].0).Success?
    ensures r.Failure? ==> r.error == NilToString
    ensures r.Success? ==> r.value.Keys == set i | 0 <= i < |submission| :: EditKey(submission[i].0).value
    ensures r.Success? ==> forall k :: k in r.value ==> IsBracketedUnder("submission", k)
    ensures r.Success? ==> forall i :: 0 <= i < |submission| && LastUnder(submission, EditKey, i) ==>
      r.value[EditKey(submission[i].0).value] == submission[i].1
  {
    RekeyHash(submission, EditKey)
  }

  /** Off `created_at`, the intended edit rule is the create rule. */
  lemma EditKeyAgrees(key: string)
    requires key != "created_at"
    ensures EditKey(key) == SubmissionKey(key)
  {
  }

  /** On `created_at` the two rules part: editing keeps the key whole ... */
  lemma EditKeepsCreatedAt()
    ensures EditKey("created_at") == Success("submission[created_at]")
  {
    assert Bracket("submission", "created_at") == "submission[created_at]";
  }

  /** ... while creating splits it. */
  lemma CreateSplitsCreatedAt()
    ensures SubmissionKey("created_at") == Success("submission[created][at]")
  {
    assert "created_at" == "created" + "_" + "at" by {}
    assert "submission[" + "created" + "][" + "at" + "]" == "submission[created][at]" by {}
    SubmissionKeyShapes("created", "at");
  }

  /** Without a `created_at` key, editing flattens exactly as creating does. */
  lemma EditMatchesCreate<V>(submission: seq<(string, V)>)
    requires forall i :: 0 <= i < |submission| ==> submission[i].0 != "created_at"
    ensures EditSubmission(submission) == FlattenSubmission(submission)
  {
    forall i | 0 <= i < |submission|
      ensures EditKey(submission[i].0) == SubmissionKey(submission[i].0)
    {
      EditKeyAgrees(submission[i].0);
    }
    RekeyAllCongruent(submission, EditKey, SubmissionKey);
  }

  /** The key rule of line 315 as written: it parses as
      `key.include?('_' && key != 'created_at')`, and since `'_'` is truthy the
      argument is the boolean `key != 'created_at'`. `String#include?` takes
      only strings, so every key raises a TypeError. */
  function EditKeyAsWritten(key: string): (r: Result<string, Fault>)
    ensures r == Failure(BoolToString)
  {
    match Include(key, RubyAnd(OStr("_"), OBool(key != "created_at")))
    case Failure(e) => Failure(e)
    case Success(hit) => if hit then SplitKey(key) else Success(Bracket("submission", key))
  }

  /** `editSubmission`'s hash as written: whatever it raises comes from the
      key test of line 315. */
  function EditSubmissionAsWritten<V>(submission: seq<(string, V)>): (r: Result<map<string, V>, Fault>)
    ensures r.Failure? ==> r.error == BoolToString
  {
    RekeyHash(submission, EditKeyAsWritten)
  }

  /** As written, `editSubmission` can only post an empty submission: an empty
      hash flattens to `{}`, and any other raises on its first key. */
  lemma EditSubmissionAsWrittenFails<V>(submission: seq<(string, V)>)
    ensures EditSubmissionAsWritten(submission).Failure? <==> |submission| > 0
    ensures |submission| == 0 ==> EditSubmissionAsWritten(submission) == Success(map[])
  {
    if |submission| > 0 {
      assert !EditKeyAsWritten(submission[0].0).Success?;
    }
  }

  /** The input that shows the defect: one ordinary answer. */
  lemma EditSubmissionDefect(v: RValue)
    ensures EditSubmissionAsWritten([("3_text", v)]) == Failure(BoolToString)
    ensures EditSubmission([("3_text", v)]) == Success(map["submission[3][text]" := v])
  {
    EditSubmissionAsWrittenFails([("3_text", v)]);
    PairKeyExample();
    EditKeyAgrees("3_text");
    var s := [("3_text", v)];
    var key := "submission[3][text]";
    assert EditKey(s[0].0) == Success(key);
    var r := EditSubmission(s);
    assert r.Success?;
    forall x | x in r.value
      ensures x == key
    {
    }
    assert LastUnder(s, EditKey, 0);
  }

  // ---------------------------------------------------------------------
  // createFormQuestion, editFormQuestion, setFormProperties

  /** The hash that wraps every key `k` of `entries` as `prefix[k]`: exactly
      the wrapped keys, each holding the value the caller's hash holds. */
  function WrapKeys<V>(prefix: string, entries: seq<(string, V)>): (h: map<string, V>)
    ensures h.Keys == set i | 0 <= i < |entries| :: Bracket(prefix, entries[i].0)
    ensures forall i :: 0 <= i < |entries| && IsLastWrite(entries, i) ==> h[Bracket(prefix, entries[i].0)] == entries[i].1
  {
    var f := k => Bracket(prefix, k);
    var writes := Relabel(entries, f);
    forall i | 0 <= i < |entries| && IsLastWrite(entries, i)
      ensures IsLastWrite(writes, i)
    {
      forall j | i < j < |writes|
        ensures writes[j].0 != writes[i].0
      {
        if writes[j].0 == writes[i].0 {
          BracketInjective(prefix, entries[j].0, entries[i].0);
        }
      }
    }
    Assign(writes)
  }

  /** Wrapping two distinct keys gives exactly their two bracketed keys. */
  lemma WrapTwo<V>(prefix: string, k1: string, v1: V, k2: string, v2: V)
    requires k1 != k2
    ensures WrapKeys(prefix, [(k1, v1), (k2, v2)]) == map[Bracket(prefix, k1) := v1, Bracket(prefix, k2) := v2]
  {
    var q := [(k1, v1), (k2, v2)];
    if Bracket(prefix, k1) == Bracket(prefix, k2) {
      BracketInjective(prefix, k1, k2);
    }
    assert IsLastWrite(q, 0) && IsLastWrite(q, 1);
    assert WrapKeys(prefix, q).Keys == {Bracket(prefix, k1), Bracket(prefix, k2)};
  }

  /** The worked example of wrapping a question: `question[text]` and `question[order]`. */
  lemma QuestionWrapExample()
    ensures WrapKeys("question", [("text", "Q1"), ("order", "2")]) == map["question[text]" := "Q1", "question[order]" := "2"]
  {
    WrapTwo("question", "text", "Q1", "order", "2");
    assert Bracket("question", "text") == "question[text]";
    assert Bracket("question", "order") == "question[order]";
  }

  /** The worked example of wrapping a property: `properties[width]`. */
  lemma PropertyWrapExample()
    ensures WrapKeys("properties", [("width", "600")]) == map["properties[width]" := "600"]
  {
    var p := [("width", "600")];
    assert Assign(p) == map["width" := "600"];
    assert Bracket("properties", "width") == "properties[width]";
    assert "width" in Assign(p);
  }

  // ---------------------------------------------------------------------
  // createForm

  /** The shape `createForm` can iterate: every category is a hash, and outside
      `properties` every field is a hash too (`each` on a String raises). */
  predicate CategoryShaped(cat: string, value: RValue)
  {
    value.RHash? && (cat != "properties" ==> forall j :: 0 <= j < |value.entries| ==> value.entries[j].1.RHash?)
  }

  predicate FormShaped(form: Entries)
  {
    forall i :: 0 <= i < |form| ==> CategoryShaped(form[i].0, form[i].1)
  }

  /** Write `w` comes from field `(k, v)` of category `cat`: `properties[k] = v`
      in the `properties` category, and `cat[k][a] = b` for sub-field `l` = `(a, b)`
      of every other category. */
  ghost predicate FieldLeaf(cat: string, k: string, v: RValue, l: int, w: (string, RValue))
  {
    if cat == "properties" then
      l == 0 && w == (Bracket(cat, k), v)
    else
      v.RHash? && 0 <= l < |v.entries| && w == (Bracket(Bracket(cat, k), v.entries[l].0), v.entries[l].1)
  }

  /** Write `w` comes from field `j` of category `(cat, value)`. */
  ghost predicate CategoryLeaf(cat: string, value: RValue, j: int, l: int, w: (string, RValue))
  {
    value.RHash? && 0 <= j < |value.entries| && FieldLeaf(cat, value.entries[j].0, value.entries[j].1, l, w)
  }

  /** Write `w` comes from some leaf of the form. */
  ghost predicate FormLeaf(form: Entries, w: (string, RValue))
  {
    exists i, j, l :: 0 <= i < |form| && CategoryLeaf(form[i].0, form[i].1, j, l, w)
  }

  /** The writes for one field `(k, v)` of category `cat`. */
  function FieldOne(cat: string, k: string, v: RValue): (r: Result<seq<(string, RValue)>, Fault>)
    ensures r.Success? <==> cat == "properties" || v.RHash?
    ensures r.Failure? ==> r.error == NoEachMethod
    ensures r.Success? ==> forall w :: w in r.value <==> exists l :: FieldLeaf(cat, k, v, l, w)
  {
    if cat == "properties" then
      assert FieldLeaf(cat, k, v, 0, (Bracket(cat, k), v));
      Success([(Bracket(cat, k), v)])
    else
      match v
      case RStr(_) => Failure(NoEachMethod)
      case RHash(sub) =>
        var writes := Relabel(sub, a => Bracket(Bracket(cat, k), a));
        assert forall l :: 0 <= l < |sub| ==> FieldLeaf(cat, k, v, l, writes[l]);
        Success(writes)
  }

  /** The writes for all fields of category `cat`, in iteration order. */
  function FieldWrites(cat: string, fields: Entries): (r: Result<seq<(string, RValue)>, Fault>)
    ensures r.Success? <==> CategoryShaped(cat, RHash(fields))
    ensures r.Failure? ==> r.error == NoEachMethod
    decreases |fields|
  {
    if |fields| == 0 then Success([])
    else
      var here :- FieldOne(cat, fields[0].0, fields[0].1);
      var rest :- FieldWrites(cat, fields[1..]);
      assert forall j :: 0 < j < |fields| ==> fields[j] == fields[1..][j - 1];
      Success(here + rest)
  }

  /** The writes for one category: its value must be a hash. */
  function CategoryWrites(cat: string, value: RValue): (r: Result<seq<(string, RValue)>, Fault>)
    ensures r.Success? <==> CategoryShaped(cat, value)
    ensures r.Failure? ==> r.error == NoEachMethod
  {
    match value
    case RStr(_) => Failure(NoEachMethod)
    case RHash(fields) => FieldWrites(cat, fields)
  }

  /** The writes for the whole form, category after category. */
  function FormWrites(form: Entries): (r: Result<seq<(string, RValue)>, Fault>)
    ensures r.Success? <==> FormShaped(form)
    ensures r.Failure? ==> r.error == NoEachMethod
    decreases |form|
  {
    if |form| == 0 then Success([])
    else
      var here :- CategoryWrites(form[0].0, form[0].1);
      var rest :- FormWrites(form[1..]);
      assert forall i :: 0 < i < |form| ==> form[i] == form[1..][i - 1];
      Success(here + rest)
  }

  /** A category's writes are exactly its leaves. */
  lemma {:induction false} FieldWritesLeaves(cat: string, fields: Entries)
    requires FieldWrites(cat, fields).Success?
    ensures forall w :: w in FieldWrites(cat, fields).value <==> exists j, l :: CategoryLeaf(cat, RHash(fields), j, l, w)
    decreases |fields|
  {
    if |fields| > 0 {
      var here := FieldOne(cat, fields[0].0, fields[0].1).value;
      var tail := fields[1..];
      FieldWritesLeaves(cat, tail);
      var rest := FieldWrites(cat, tail).value;
      assert FieldWrites(cat, fields).value == here + rest;
      forall w
        ensures w in here + rest <==> exists j, l :: CategoryLeaf(cat, RHash(fields), j, l, w)
      {
        if w in here {
          var l :| FieldLeaf(cat, fields[0].0, fields[0].1, l, w);
          assert CategoryLeaf(cat, RHash(fields), 0, l, w);
        } else if w in rest {
          var j, l :| CategoryLeaf(cat, RHash(tail), j, l, w);
          assert tail[j] == fields[j + 1];
          assert CategoryLeaf(cat, RHash(fields), j + 1, l, w);
        }
        if exists j, l :: CategoryLeaf(cat, RHash(fields), j, l, w) {
          var j, l :| CategoryLeaf(cat, RHash(fields), j, l, w);
          if j == 0 {
            assert w in here;
          } else {
            assert tail[j - 1] == fields[j];
            assert CategoryLeaf(cat, RHash(tail), j - 1, l, w);
          }
        }
      }
    }
  }

  /** The form's writes are exactly its leaves. */
  lemma {:induction false} FormWritesLeaves(form: Entries)
    requires FormWrites(form).Success?
    ensures forall w :: w in FormWrites(form).value <==> FormLeaf(form, w)
    decreases |form|
  {
    if |form| > 0 {
      var here := CategoryWrites(form[0].0, form[0].1).value;
      var tail := form[1..];
      FormWritesLeaves(tail);
      FieldWritesLeaves(form[0].0, form[0].1.entries);
      var rest := FormWrites(tail).value;
      assert FormWrites(form).value == here + rest;
      forall w
        ensures w in here + rest <==> FormLeaf(form, w)
      {
        if w in here {
          var j, l :| CategoryLeaf(form[0].0, form[0].1, j, l, w);
          assert 0 < |form| && CategoryLeaf(form[0].0, form[0].1, j, l, w);
        } else if w in rest {
          var i, j, l :| 0 <= i < |tail| && CategoryLeaf(tail[i].0, tail[i].1, j, l, w);
          assert tail[i] == form[i + 1];
          assert CategoryLeaf(form[i + 1].0, form[i + 1].1, j, l, w);
        }
        if FormLeaf(form, w) {
          var i, j, l :| 0 <= i < |form| && CategoryLeaf(form[i].0, form[i].1, j, l, w);
          if i == 0 {
            assert w in here;
          } else {
            assert tail[i - 1] == form[i];
            assert CategoryLeaf(tail[i - 1].0, tail[i - 1].1, j, l, w);
          }
        }
      }
    }
  }

  /** `createForm`'s hash: its fields are exactly the leaves' names, each holding
      the value of a leaf of that name; a String where a hash is iterated raises. */
  function FlattenForm(form: Entries): (r: Result<Hash, Fault>)
    ensures r.Success? <==> FormShaped(form)
    ensures r.Failure? ==> r.error == NoEachMethod
    ensures r.Success? ==> forall key, v :: FormLeaf(form, (key, v)) ==> key in r.value
    ensures r.Success? ==> forall key :: key in r.value ==> FormLeaf(form, (key, r.value[key]))
  {
    var writes :- FormWrites(form);
    FormWritesLeaves(form);
    var h := Assign(writes);
    assert forall key :: key in h ==> FormLeaf(form, (key, h[key])) by {
      forall key | key in h
        ensures FormLeaf(form, (key, h[key]))
      {
        AssignProvenance(writes, key);
        var n :| 0 <= n < |writes| && writes[n].0 == key && IsLastWrite(writes, n) && writes[n].1 == h[key];
        assert writes[n] == (key, h[key]);
        assert writes[n] in writes;
      }
    }
    assert forall key, v :: FormLeaf(form, (key, v)) ==> key in h by {
      forall key, v | FormLeaf(form, (key, v))
        ensures key in h
      {
        assert (key, v) in writes;
        var n :| 0 <= n < |writes| && writes[n] == (key, v);
      }
    }
    Success(h)
  }

  /** A single property field is one write. */
  lemma SinglePropertyWrites(k: string, v: RValue)
    ensures FieldWrites("properties", [(k, v)]) == Success([(Bracket("properties", k), v)])
  {
    var p := (Bracket("properties", k), v);
    assert FieldOne("properties", k, v) == Success([p]);
    assert [(k, v)][1..] == [];
    assert [p] + [] == [p];
  }

  /** A single nested field with a single sub-field is one write. */
  lemma SingleNestedWrites(cat: string, q: string, a: string, b: RValue)
    requires cat != "properties"
    ensures FieldWrites(cat, [(q, RHash([(a, b)]))]) == Success([(Bracket(Bracket(cat, q), a), b)])
  {
    var n := (Bracket(Bracket(cat, q), a), b);
    assert Relabel([(a, b)], x => Bracket(Bracket(cat, q), x)) == [n];
    assert FieldOne(cat, q, RHash([(a, b)])) == Success([n]);
    assert [(q, RHash([(a, b)]))][1..] == [];
    assert [n] + [] == [n];
  }

  /** A form with one property and one nested question flattens to
      `properties[k]` and `cat[q][a]`; should the two names coincide, the
      later write, the nested one, wins. */
  lemma FlattenFormTwoLeaves(k: string, v: RValue, cat: string, q: string, a: string, b: RValue)
    requires cat != "properties"
    ensures FlattenForm([("properties", RHash([(k, v)])), (cat, RHash([(q, RHash([(a, b)]))]))])
      == Success(map[Bracket("properties", k) := v, Bracket(Bracket(cat, q), a) := b])
  {
    var form := [("properties", RHash([(k, v)])), (cat, RHash([(q, RHash([(a, b)]))]))];
    var p := (Bracket("properties", k), v);
    var n := (Bracket(Bracket(cat, q), a), b);
    SinglePropertyWrites(k, v);
    SingleNestedWrites(cat, q, a, b);
    assert form[1..][1..] == [];
    assert [n] + [] == [n];
    assert FormWrites(form[1..]) == Success([n]);
    assert FormWrites(form) == Success([p] + [n]);
    assert [p] + [n] == [p, n];
    assert [p, n][..1] == [p];
    assert Assign([p]) == map[p.0 := p.1];
    assert Assign([p, n]) == map[p.0 := p.1, n.0 := n.1];
  }

  /** A category whose value is a String cannot be iterated. */
  lemma FlattenFormRejectsString(cat: string, s: string, form: Entries)
    ensures FlattenForm([(cat, RStr(s))] + form) == Failure(NoEachMethod)
  {
    assert !CategoryShaped(([(cat, RStr(s))] + form)[0].0, ([(cat, RStr(s))] + form)[0].1);
  }
}

=== FILE: http.dfy ===
/**
 The request executor: a request is built from the client's configuration,
 an endpoint, a verb and the parameters; the response envelope is unwrapped
 to its `content`. Sending the request is the transport's business and is
 passed in as a function.
 */
module Http {
  import opened Wrappers
  import opened RubyValues

  datatype Verb = GET | POST | PUT | DELETE

  /** The client's configuration, fixed when the client is created. The API
      key defaults to `nil`. */
  datatype Config = Config(apiKey: Option<string>, baseUrl: string, apiVersion: string)

  /** A client created with only an API key. */
  function NewClient(apiKey: Option<string>): Config
  {
    Config(apiKey, "https://api.jotform.com", "v1")
  }

  /** The `parameters` argument as the client hands it on: the default empty
      argument, a hash of form fields, or a pre-serialised text. */
  datatype Params = NoParams | Fields(fields: Hash) | Text(text: string)

  /** What the request carries: nothing, the parameters to be form-encoded,
      or the parameters as the raw body. */
  datatype Body = NoBody | FormData(params: Params) | RawBody(params: Params)

  /** An outgoing request: the joined URL (whose path the transport takes),
      the query carrying the API key, the body, and the Content-Type header
      the client sets itself. */
  datatype Request = Request(verb: Verb, url: string, query: string, body: Body, contentType: Option<string>)

  const JsonContentType: string := "application/json"

  /** `_executeHTTPRequest` up to sending: the API key always travels in the
      query, whatever the verb; only POST and PUT carry the parameters, POST
      as form data and PUT verbatim with a JSON Content-Type. A missing API
      key raises when it is concatenated onto the path. */
  function BuildRequest(cfg: Config, endpoint: string, verb: Verb, params: Params): (r: Result<Request, Fault>)
    ensures r.Failure? <==> cfg.apiKey.None?
    ensures r.Failure? ==> r.error == NilToString
    ensures r.Success? ==> r.value.verb == verb
    ensures r.Success? ==> r.value.url == cfg.baseUrl + "/" + cfg.apiVersion + "/" + endpoint
    ensures r.Success? ==> r.value.query == "?apiKey=" + cfg.apiKey.value
    ensures r.Success? ==> (r.value.body == NoBody <==> verb == GET || verb == DELETE)
    ensures r.Success? ==> (r.value.body.FormData? <==> verb == POST) && (r.value.body.RawBody? <==> verb == PUT)
    ensures r.Success? && r.value.body != NoBody ==> r.value.body.params == params
    ensures r.Success? ==> (r.value.contentType.Some? <==> verb == PUT)
    ensures r.Success? && r.value.contentType.Some? ==> r.value.contentType.value == JsonContentType
  {
    match cfg.apiKey
    case None => Failure(NilToString)
    case Some(key) =>
      var url := Join3(cfg.baseUrl, cfg.apiVersion, endpoint);
      var query := "?apiKey=" + key;
      Success(
        match verb
        case GET => Request(GET, url, query, NoBody, None)
        case POST => Request(POST, url, query, FormData(params), None)
        case DELETE => Request(DELETE, url, query, NoBody, None)
        case PUT => Request(PUT, url, query, RawBody(params), Some(JsonContentType)))
  }

  /** `[a, b, c].join("/")`. */
  function Join3(a: string, b: string, c: string): string
  {
    a + "/" + b + "/" + c
  }

  /** GET and DELETE requests do not depend on the parameters at all. */
  lemma BodilessIgnoresParams(cfg: Config, endpoint: string, verb: Verb, p1: Params, p2: Params)
    requires verb == GET || verb == DELETE
    ensures BuildRequest(cfg, endpoint, verb, p1) == BuildRequest(cfg, endpoint, verb, p2)
  {
  }

  /** Changing the parameters changes nothing but the body. */
  lemma ParamsOnlyReachBody(cfg: Config, endpoint: string, verb: Verb, p1: Params, p2: Params)
    requires cfg.apiKey.Some?
    ensures var r1, r2 := BuildRequest(cfg, endpoint, verb, p1).value, BuildRequest(cfg, endpoint, verb, p2).value;
      r1.(body := r2.body) == r2
  {
  }

  /** A parsed response: its HTTP status and the JSON object it carries. */
  datatype Response = Response(status: int, envelope: map<string, Json>)

  /** `Net::HTTPSuccess`: the 2xx statuses. */
  predicate IsSuccess(status: int)
  {
    200 <= status < 300
  }

  /** The envelope unwrap: a successful response yields its `content`
      member, and nothing else ever yields a value; the error body is only
      printed. */
  function Unwrap(response: Response): (r: Option<Json>)
    ensures r.Some? <==> IsSuccess(response.status) && "content" in response.envelope
    ensures r.Some? ==> r.value == response.envelope["content"]
  {
    if IsSuccess(response.status) then
      if "content" in response.envelope then Some(response.envelope["content"]) else None
    else
      None
  }

  /** `_executeHTTPRequest`: build the request, send it once, unwrap the reply. */
  function Execute(cfg: Config, endpoint: string, verb: Verb, params: Params, transport: Request -> Response): (r: Result<Option<Json>, Fault>)
    ensures r.Failure? <==> cfg.apiKey.None?
    ensures r.Success? ==> BuildRequest(cfg, endpoint, verb, params).Success?
    ensures r.Success? && r.value.Some? ==>
      var response := transport(BuildRequest(cfg, endpoint, verb, params).value);
      IsSuccess(response.status) && "content" in response.envelope && r.value.value == response.envelope["content"]
    ensures r.Success? && r.value.None? ==>
      var response := transport(BuildRequest(cfg, endpoint, verb, params).value);
      !IsSuccess(response.status) || "content" !in response.envelope
  {
    var request :- BuildRequest(cfg, endpoint, verb, params);
    Success(Unwrap(transport(request)))
  }

  /** The default client builds its URLs under `https://api.jotform.com/v1/`. */
  lemma DefaultClientUrl(key: string, endpoint: string)
    ensures BuildRequest(NewClient(Some(key)), endpoint, GET, NoParams).value.url == "https://api.jotform.com/v1/" + endpoint
  {
    assert "https://api.jotform.com" + "/" + "v1" + "/" == "https://api.jotform.com/v1/";
  }
}

=== FILE: strings.dfy ===
/**
 Ruby's `String#split` with a one-character separator, as the submission
 flatteners use it: the string is cut at every separator and the trailing
 empty pieces are dropped. Also `String#include?` and the `&&` that feeds it
 its argument in the edit flattener.
 */
module RubyStrings {
  import opened Wrappers
  import opened RubyValues

  /** `Array#join(sep)`: the pieces with one separator between neighbours. */
  function Join(parts: seq<string>, sep: char): string
  {
    if |parts| == 0 then ""
    else if |parts| == 1 then parts[0]
    else parts[0] + [sep] + Join(parts[1..], sep)
  }

  /** The pieces of `s` between separators, empty pieces included: joining
      them back gives `s`, and no piece holds a separator. */
  function SplitAll(s: string, sep: char): (parts: seq<string>)
    ensures |parts| >= 1
    ensures forall i :: 0 <= i < |parts| ==> sep !in parts[i]
    ensures Join(parts, sep) == s
    decreases |s|
  {
    if |s| == 0 then [""]
    else
      var rest := SplitAll(s[1..], sep);
      if s[0] == sep then
        assert ([""] + rest)[1..] == rest;
        [""] + rest
      else
        var parts := [[s[0]] + rest[0]] + rest[1..];
        assert parts[1..] == rest[1..];
        assert s == [s[0]] + s[1..];
        parts
  }

  /** `ps` without its trailing empty pieces. */
  function DropTrailingEmpty(ps: seq<string>): (r: seq<string>)
    ensures |r| <= |ps| && r == ps[..|r|]
    ensures |r| == 0 || r[|r| - 1] != ""
    ensures forall i :: |r| <= i < |ps| ==> ps[i] == ""
  {
    if |ps| == 0 then []
    else if ps[|ps| - 1] == "" then
      var r := DropTrailingEmpty(ps[..|ps| - 1]);
      assert ps[..|ps| - 1][..|r|] == ps[..|r|];
      r
    else ps
  }

  /** `s.split(sep)` in Ruby: `"3_".split('_') == ["3"]`, `"_".split('_') == []`,
      `"_a".split('_') == ["", "a"]`. */
  function RubySplit(s: string, sep: char): seq<string>
  {
    DropTrailingEmpty(SplitAll(s, sep))
  }

  /** Splitting is determined by its two defining properties: any separator-free
      pieces that join to `s` are exactly `SplitAll(s, sep)`. */
  lemma {:induction false} SplitAllUnique(parts: seq<string>, s: string, sep: char)
    requires |parts| >= 1
    requires forall i :: 0 <= i < |parts| ==> sep !in parts[i]
    requires Join(parts, sep) == s
    ensures parts == SplitAll(s, sep)
    decreases |s|
  {
    if |parts| == 1 {
      SplitAllOfPiece(s, sep);
    } else if parts[0] == "" {
      assert s == [sep] + Join(parts[1..], sep);
      assert s[1..] == Join(parts[1..], sep);
      SplitAllUnique(parts[1..], s[1..], sep);
      assert parts == [""] + parts[1..];
    } else {
      var c := parts[0][0];
      var shorter := [parts[0][1..]] + parts[1..];
      assert shorter[1..] == parts[1..];
      assert parts[0] == [c] + parts[0][1..];
      assert s == [c] + (parts[0][1..] + [sep] + Join(parts[1..], sep));
      assert Join(shorter, sep) == s[1..];
      forall i | 0 <= i < |shorter|
        ensures sep !in shorter[i]
      {
        if i == 0 {
          assert forall k :: 0 <= k < |parts[0][1..]| ==> parts[0][1..][k] == parts[0][k + 1];
        } else {
          assert shorter[i] == parts[i];
        }
      }
      SplitAllUnique(shorter, s[1..], sep);
      assert c == s[0] && c != sep;
      assert parts == [[s[0]] + shorter[0]] + shorter[1..];
    }
  }

  /** A separator-free string splits into itself alone. */
  lemma {:induction false} SplitAllOfPiece(s: string, sep: char)
    requires sep !in s
    ensures SplitAll(s, sep) == [s]
    decreases |s|
  {
    if |s| > 0 {
      assert sep !in s[1..] by {
        assert forall k :: 0 <= k < |s[1..]| ==> s[1..][k] == s[k + 1];
      }
      SplitAllOfPiece(s[1..], sep);
      assert s == [s[0]] + s[1..];
    }
  }

  /** Joining a concatenation puts one separator at the seam. */
  lemma {:induction false} JoinAppend(a: seq<string>, b: seq<string>, sep: char)
    requires |a| >= 1 && |b| >= 1
    ensures Join(a + b, sep) == Join(a, sep) + [sep] + Join(b, sep)
    decreases |a|
  {
    if |a| == 1 {
      assert (a + b)[1..] == b;
    } else {
      assert (a + b)[1..] == a[1..] + b;
      JoinAppend(a[1..], b, sep);
    }
  }

  /** A key made of two separator-free parts around one separator splits
      into exactly those two parts, provided the second is not empty. */
  lemma SplitPair(q: string, f: string, sep: char)
    requires sep !in q && sep !in f && f != ""
    ensures RubySplit(q + [sep] + f, sep) == [q, f]
  {
    assert Join([q, f], sep) == q + [sep] + f;
    SplitAllUnique([q, f], q + [sep] + f, sep);
  }

  /** A trailing separator after a non-empty separator-free piece leaves that piece alone. */
  lemma SplitTrailing(q: string, sep: char)
    requires sep !in q && q != ""
    ensures RubySplit(q + [sep], sep) == [q]
  {
    assert Join([q, ""], sep) == q + [sep];
    SplitAllUnique([q, ""], q + [sep], sep);
    assert [q, ""][..1] == [q];
  }

  /** A separator appended at the end changes nothing: the empty piece it
      opens is a trailing one, and Ruby drops it. */
  lemma RubySplitTrailingSep(s: string, sep: char)
    ensures RubySplit(s + [sep], sep) == RubySplit(s, sep)
  {
    var ps := SplitAll(s, sep);
    var qs := ps + [""];
    JoinAppend(ps, [""], sep);
    assert Join([""], sep) == "";
    assert Join(qs, sep) == s + [sep];
    forall i | 0 <= i < |qs|
      ensures sep !in qs[i]
    {
      if i < |ps| {
        assert qs[i] == ps[i];
      }
    }
    SplitAllUnique(qs, s + [sep], sep);
    assert qs[..|qs| - 1] == ps;
  }

  /** With separator-free ends, the first and last pieces are the ends
      whatever lies between them. */
  lemma SplitEnds(q: string, mid: string, f: string, sep: char)
    requires sep !in q && sep !in f && f != ""
    ensures var parts := RubySplit(q + [sep] + mid + [sep] + f, sep);
      |parts| >= 2 && parts[0] == q && parts[|parts| - 1] == f
  {
    var ms := SplitAll(mid, sep);
    var parts := [q] + ms + [f];
    JoinAppend([q], ms, sep);
    JoinAppend([q] + ms, [f], sep);
    assert Join([q], sep) == q && Join([f], sep) == f;
    forall i | 0 <= i < |parts|
      ensures sep !in parts[i]
    {
      if 0 < i < |parts| - 1 {
        assert parts[i] == ms[i - 1];
      }
    }
    SplitAllUnique(parts, q + [sep] + mid + [sep] + f, sep);
  }

  /** Ruby's split comes back empty exactly when the string is nothing but
      separators (the empty string included). */
  lemma RubySplitEmptyIff(s: string, sep: char)
    ensures RubySplit(s, sep) == [] <==> forall i :: 0 <= i < |s| ==> s[i] == sep
  {
    var ps := SplitAll(s, sep);
    var r := DropTrailingEmpty(ps);
    assert RubySplit(s, sep) == r;
    AllPiecesEmptyIff(s, sep);
    if r == [] {
      assert forall i :: 0 <= i < |ps| ==> ps[i] == "";
    } else {
      assert r[|r| - 1] != "";
      assert ps[|r| - 1] == r[|r| - 1];
      assert !(forall i :: 0 <= i < |ps| ==> ps[i] == "");
    }
  }

  /** Every piece is empty exactly when every character is a separator. */
  lemma {:induction false} AllPiecesEmptyIff(s: string, sep: char)
    ensures (forall i :: 0 <= i < |SplitAll(s, sep)| ==> SplitAll(s, sep)[i] == "")
        <==> (forall i :: 0 <= i < |s| ==> s[i] == sep)
    decreases |s|
  {
    if |s| > 0 {
      AllPiecesEmptyIff(s[1..], sep);
      var rest := SplitAll(s[1..], sep);
      if s[0] == sep {
        var ps := [""] + rest;
        assert SplitAll(s, sep) == ps;
        assert forall i :: 0 < i < |ps| ==> ps[i] == rest[i - 1];
        assert (forall i :: 0 <= i < |ps| ==> ps[i] == "") <==> (forall i :: 0 <= i < |rest| ==> rest[i] == "");
        assert (forall i :: 0 <= i < |s| ==> s[i] == sep) <==> (forall i :: 0 <= i < |s[1..]| ==> s[1..][i] == sep) by {
          assert forall i :: 0 < i < |s| ==> s[i] == s[1..][i - 1];
        }
      } else {
        assert SplitAll(s, sep)[0] != "";
      }
    }
  }

  // ---------------------------------------------------------------------
  // `&&` and `String#include?`

  /** A Ruby value as an operand of `&&` or the argument of `include?`: the
      client only ever passes strings and booleans there. */
  datatype Operand = OStr(s: string) | OBool(b: bool)

  /** Ruby's `a && b`: `a` itself when it is falsy, else `b`. Of the operands
      modelled only `false` is falsy; every string is truthy. */
  function RubyAnd(a: Operand, b: Operand): Operand
  {
    if a == OBool(false) then a else b
  }

  /** `t` occurs in `s` as a contiguous run. */
  predicate Contains(s: string, t: string)
  {
    exists i :: 0 <= i <= |s| - |t| && s[i..][..|t|] == t
  }

  /** `String#include?(arg)`: a substring test when `arg` is a string; given
      `true` or `false` it raises a TypeError, since a boolean has no
      implicit conversion into String. */
  function Include(s: string, arg: Operand): (r: Result<bool, Fault>)
    ensures r.Failure? <==> arg.OBool?
    ensures r.Failure? ==> r.error == BoolToString
  {
    match arg
    case OStr(t) => Success(Contains(s, t))
    case OBool(_) => Failure(BoolToString)
  }

  /** `s.include?(c)` for a one-character string holds exactly when `c` is
      one of the characters of `s`. */
  lemma IncludeCharIff(s: string, c: char)
    ensures Include(s, OStr([c])) == Success(c in s)
  {
    if c in s {
      var i :| 0 <= i < |s| && s[i] == c;
      assert s[i..][..1] == [c];
      assert Contains(s, [c]);
    } else {
      forall i | 0 <= i <= |s| - 1
        ensures s[i..][..1] != [c]
      {
        assert s[i..][..1][0] == s[i];
      }
    }
  }

  /** `'_' && b` is `b`: a string on the left of `&&` is truthy, so the
      whole expression evaluates to its right operand. */
  lemma StringAndYieldsRight(t: string, b: bool)
    ensures RubyAnd(OStr(t), OBool(b)) == OBool(b)
    ensures Include(t, RubyAnd(OStr("_"), OBool(b))) == Failure(BoolToString)
  {
  }
}

=== FILE: values.dfy ===
/**
 Values that flow through the client: the caller's form data (strings and
 nested hashes), the JSON documents the service returns, and the Ruby
 exceptions the client can raise while building a request.
 */
module RubyValues {

  /** A value in a caller-supplied hash: a string, or a nested hash whose
      entries are listed in insertion order. */
  datatype RValue = RStr(s: string) | RHash(entries: seq<(string, RValue)>)

  /** The entries of a Ruby hash, in iteration order. */
  type Entries = seq<(string, RValue)>

  /** A built Ruby hash once insertion order no longer matters. */
  type Hash = map<string, RValue>

  /** A parsed JSON document. */
  datatype Json =
    | JNull
    | JBool(b: bool)
    | JInt(n: int)
    | JStr(s: string)
    | JArr(items: seq<Json>)
    | JObj(members: seq<(string, Json)>)

  /** The Ruby exceptions the client itself can raise. */
  datatype Fault =
    | NilToString   // TypeError: `String#+` given nil
    | BoolToString  // TypeError: `String#include?` given true or false
    | NoEachMethod  // NoMethodError: `each` called on a String

  /** The hash left by starting from `{}` and performing `h[k] = v` for every
      pair in order: every key written is present, and each key holds the
      value of its last write. */
  function Assign<V>(writes: seq<(string, V)>): (h: map<string, V>)
    ensures h.Keys == set i | 0 <= i < |writes| :: writes[i].0
    ensures forall i :: 0 <= i < |writes| && IsLastWrite(writes, i) ==> h[writes[i].0] == writes[i].1
  {
    if |writes| == 0 then map[]
    else
      var front := writes[..|writes| - 1];
      var last := writes[|writes| - 1];
      assert forall i :: 0 <= i < |front| ==> front[i] == writes[i];
      Assign(front)[last.0 := last.1]
  }

  /** No write after position `i` touches the key written at `i`. */
  ghost predicate IsLastWrite<V>(writes: seq<(string, V)>, i: int)
    requires 0 <= i < |writes|
  {
    forall j :: i < j < |writes| ==> writes[j].0 != writes[i].0
  }

  /** Every key written is in the assigned hash, holding the value of the
      last write to that key. */
  lemma {:induction false} AssignProvenance<V>(writes: seq<(string, V)>, k: string)
    requires exists i :: 0 <= i < |writes| && writes[i].0 == k
    ensures k in Assign(writes)
    ensures exists i :: 0 <= i < |writes| && writes[i].0 == k && IsLastWrite(writes, i) && writes[i].1 == Assign(writes)[k]
  {
    var n := |writes| - 1;
    if writes[n].0 == k {
      assert IsLastWrite(writes, n);
    } else {
      var front := writes[..n];
      var i0 :| 0 <= i0 < |writes| && writes[i0].0 == k;
      assert front[i0] == writes[i0];
      AssignProvenance(front, k);
      assert Assign(writes) == Assign(front)[writes[n].0 := writes[n].1];
      var i :| 0 <= i < |front| && front[i].0 == k && IsLastWrite(front, i) && front[i].1 == Assign(front)[k];
      LastWriteExtends(writes, i);
    }
  }

  /** A last write among all but the final pair stays last when the final
      pair writes another key. */
  lemma LastWriteExtends<V>(writes: seq<(string, V)>, i: int)
    requires 0 <= i < |writes| - 1
    requires IsLastWrite(writes[..|writes| - 1], i)
    requires writes[|writes| - 1].0 != writes[i].0
    ensures IsLastWrite(writes, i)
  {
    var front := writes[..|writes| - 1];
    forall j | i < j < |writes|
      ensures writes[j].0 != writes[i].0
    {
      if j < |writes| - 1 {
        assert writes[j] == front[j];
      }
    }
  }
}

=== FILE: wrappers.dfy ===
/** Failure-carrying datatypes shared by the whole model. */
module Wrappers {

  /** Ruby's `nil` versus a present value. */
  datatype Option<+T> = None | Some(value: T)

  /** A computation that either yields a value or raises. */
  datatype Result<+R, +E> = Success(value: R) | Failure(error: E) {

    predicate IsFailure() {
      Failure?
    }

    function PropagateFailure<U>(): Result<U, E>
      requires Failure?
    {
      Failure(error)
    }

    function Extract(): R
      requires Success?
    {
      value
    }
  }
}
